=== FILE: README.md ===
# A verified model of the e-voting views

This project models the state logic of `voting/views.py` from an online
ballot application. The model has four parts:

- **Ballot renderer** (`generate_ballot`, `show_ballot`). It orders the
  positions by priority and produces one entry per position. An entry gives
  the widget kind, the input name, the instruction, the candidate ids and
  the move-up/move-down flags. As a side effect the renderer rewrites every
  priority to its 1-based rank.
- **One-time passcode service** (`generate_otp`, `resend_otp`,
  `verify_otp`, `dashboard`, `bypass_otp`). It covers the code shape, the
  send counter capped at three, code acceptance, the automatic
  verification when delivery is off, and the bulk bypass.
- **Selection validator and preview** (`preview_vote`). It reads each
  position's choices from the posted form, applies the cap of multi-select
  positions, and resolves candidate references leniently: a reference that
  names no candidate of the position is skipped.
- **Vote submission** (`submit_ballot`). It creates one vote per resolved
  choice, position by position. Then it compares the voter's vote count
  with the number of votes it created. If they agree it marks the voter as
  having voted; otherwise it deletes every vote of the voter.

The record store is the class `Views.ElectionStore`. Its four tables
(positions, candidates, voters, votes) are `seq` fields that the view
methods update in place. Each method is proved against a specification
function over values:

| method | specification function |
|---|---|
| `GenerateBallot` | `Ballot.BallotOf`, `Ballot.Renumbered` |
| `Dashboard` | `Otp.Dashboard` |
| `ResendOtp` | `Otp.Resend` |
| `VerifyOtp` | `Otp.Verify` |
| `BypassOtp` | `Otp.Bypassed` |
| `PreviewVote` | `Selection.PreviewOf` |
| `SubmitBallot` | `Submission.Submit` |

Lemmas state the properties of those functions. Every view method keeps
the store invariant `Valid()` (the loop helpers `RenderInOrder`,
`RecordChoices` and `CastVotes` are proved against the specification
functions instead, and their callers re-establish it):

- position, candidate and voter ids are unique;
- every vote names a candidate standing for the position it is recorded
  under;
- no voter marked as having voted holds more votes for a position than
  the position allows.

Inputs from outside the program are parameters:

- the `SEND_OTP` setting is `sendOtp`;
- the SMS gateway's answer is `delivered`;
- `slugify` is an uninterpreted `string -> string` function;
- the random draws of `generate_otp` are a sequence `draws`;
- the request method is `isPost`;
- the posted form is a `map<string, seq<string>>`;
- the code posted to `verify_otp` is `posted: Option<string>`, standing for
  `request.POST.get('otp')`: the last value of the `otp` field, or `None`
  when the field is absent;
- the logged-in voter is an index `v` into the voter table.

Positions are visited in store order wherever the views use
`Position.objects.all()`. The store's default ordering, defined in
`voting/models.py`, is not part of this model.

Modules, one file each:

- `Wrappers`: `Option`.
- `Records`: the record types, decimal ids, and store queries.
- `Ballot`: rendering and renumbering.
- `Otp`: the passcode transitions.
- `Selection`: form keys, resolution and preview.
- `Submission`: commit or rollback, and the table invariant.
- `Views`: the class.

### Where the code behaves unexpectedly

The model follows the code in each of these cases:

- **Too-many exit.** One might expect a submission with too many choices
  for a position to write nothing. The code returns at
  `voting/views.py:294-296` without deleting the votes it has already
  created for earlier positions. `Submission.SubmitOwnVotes` states that
  these votes remain.
- **Leftover votes.** The count check at `voting/views.py:314` counts all
  of the voter's votes. Votes left by an aborted submission therefore make
  the next complete submission roll back; the one after it is recorded.
  See `Submission.CommitIffNoLeftovers` and
  `Submission.RefusalThenRollbackThenCommit`.
- **Resend with delivery off.** One might expect a request for a code with
  delivery switched off to verify the voter. `resend_otp` only replies
  (`voting/views.py:168-169`); the automatic verification happens in
  `dashboard` instead. See `Otp.Resend` and `Otp.Dashboard`.
- **Missing codes.** `verify_otp` compares two optional values. A voter
  with no stored code is verified by a POST that carries no code at all,
  even with delivery on. See `Otp.MissingCodeMatchesMissingCode`.
- **Preview and submission clean the form differently.** `preview_vote`
  removes only the CSRF token (`voting/views.py:234-235`), while
  `submit_ballot` also removes `submit_vote` and stops at an empty form
  (`voting/views.py:281-287`). A position whose slug is `submit_vote` is
  therefore listed by the preview but ignored by the submission.
  `Selection.PreviewAgreesWithSubmission` compares the two on one and the
  same form.
- **Empty ballots are recorded.** A POST carrying only unrelated keys, or
  only references that name no candidate, passes the emptiness check at
  `voting/views.py:285`, creates no votes and meets the count check at
  `voting/views.py:314` with zero. A voter holding no votes is then marked
  as having voted with an empty ballot. See
  `Submission.EmptyBallotRecorded`.

## Model

| member | source | states |
|---|---|---|
| Records.ParseId | voting/views.py:299 | a posted reference converts to a primary key exactly when it is a non-empty string of decimal digits |
| Records.DecimalRoundTrip | voting/views.py:40 | the value written into a ballot input converts back to the candidate id it was written from |
| Records.FindById | voting/views.py:299 | a row found by primary key and position carries that id and that position |
| Records.FindCandidate | voting/views.py:298-303 | a candidate found for a reference has the id the reference parses to and stands for the position |
| Records.FindByIdSound | voting/views.py:299 | a lookup by primary key and position returns a candidate with that id standing for that position, or none exists |
| Records.FindCandidateSound | voting/views.py:298-303 | the lookup either finds a candidate with the parsed id standing for the position, or no such candidate exists (the skipped `except` path) |
| Records.FindCandidateByDecimal | voting/views.py:299 | with unique candidate ids, looking up the decimal text of a candidate's id under its own position finds exactly that candidate |
| Records.CandidatesOfSpec | voting/views.py:28 | holds exactly the candidates standing for the position |
| Records.IdsOfSpec | voting/views.py:28 | lists the ids of those candidates in the same order |
| Records.VotesOf | voting/views.py:314 | holds exactly the votes of the voter, and no more votes than the table |
| Records.VotesOfCounts | voting/views.py:314 | counts every row of the voter as often as the table holds it, so duplicate rows are counted one by one |
| Records.AtPositionCounts | voting/views.py:292-296 | keeps every row for the position as often as the list holds it |
| Records.WithoutVoter | voting/views.py:315 | after the delete, the table holds exactly the votes of other voters |
| Records.WithoutVoterVotesOf | voting/views.py:315 | after the delete, the voter has no votes and every other voter keeps exactly their votes |
| Ballot.OrderByPriority | voting/views.py:20 | lists every position index exactly once, by non-decreasing priority |
| Ballot.SortIndicesSorted | voting/views.py:20 | the priority sort yields a sorted listing, without duplicates when its input has none |
| Ballot.Renumbered | voting/views.py:20-101 | the render rewrites the priorities of all positions and keeps their number |
| Ballot.RenumberSpec | voting/views.py:99-101 | the position at rank k gets priority k + 1; unranked positions are unchanged; only the priority field changes |
| Ballot.RenumberInRange | voting/views.py:99-101 | after renumbering along a full listing, every priority lies in 1..N |
| Ballot.RenumberDistinct | voting/views.py:99-101 | after renumbering along a full listing, no two positions share a priority |
| Ballot.RenumberCovers | voting/views.py:99-101 | after renumbering along a full listing, the set of priorities is exactly {1..N} |
| Ballot.RenumberRanked | voting/views.py:99-101 | after renumbering along a full listing, the priorities are exactly 1..N, each used once |
| Ballot.RenumberedRanks | voting/views.py:20-101 | after a render, the position at rank k of the old priority order has priority k + 1; the priorities are exactly 1..N; nothing else changes |
| Ballot.RankedOrder | voting/views.py:20 | when the priorities already are 1..N, the priority order puts priority k + 1 at rank k |
| Ballot.RankedIsFixed | voting/views.py:20-101 | a render over priorities that already are 1..N leaves every position unchanged |
| Ballot.RenumberedIdempotent | voting/views.py:99-101 | rendering a second time writes the same priorities as the first render |
| Ballot.EntriesSpec | voting/views.py:25-97 | one entry per listed position, in listing order, each built from that position |
| Ballot.EntryForShows | voting/views.py:31-79 | a checkbox named slug + "[]" with "You may select up to N candidates" iff max_vote > 1, else a radio named slug with "Select only one candidate"; exactly the position's candidates, possibly none; controls only when requested, up disabled iff the old priority is 1, down disabled iff it equals the number of positions |
| Ballot.BallotOf | voting/views.py:19-104 | one entry per position |
| Ballot.BallotEntries | voting/views.py:19-104 | the ballot has one entry per position, every position appears, entries follow non-decreasing priority, and each entry shows what `EntryForShows` states |
| Otp.DigitsOf | voting/views.py:113 | one digit character per draw, spelling the draw's value |
| Otp.GenerateOtp | voting/views.py:113 | a code of 5 to 8 characters, each a digit from '1' to '9' |
| Otp.Resend | voting/views.py:146-171 | with delivery off the reply is "not required" and the voter is unchanged; with delivery on and three codes sent the reply is "limit reached" and the voter is unchanged; below the limit the reply is "sent" iff the gateway delivered, else "failed"; the counter rises by exactly one iff the code was delivered; when a code is sent or attempted the voter's code becomes the existing non-empty code or a fresh one; id, phone, verified and voted never change |
| Otp.ResendWithinLimit | voting/views.py:152-163 | resending never takes the send counter past three |
| Otp.FourthResendRefused | voting/views.py:152-163 | three delivered resends reach the limit and all carry the same code; the fourth is refused and changes nothing |
| Otp.Verify | voting/views.py:210-212 | the voter becomes verified iff the posted code equals the stored one, or delivery is off and the code is "0000"; nothing else changes |
| Otp.DeliveredCodeVerifies | voting/views.py:156-163 | the code carried by the SMS of a successful resend verifies the voter, and any later resend keeps that code, so it still verifies |
| Otp.WrongCodeRejected | voting/views.py:210 | with delivery on, a code other than the stored one leaves the voter unchanged |
| Otp.BypassCodeAccepted | voting/views.py:210 | with delivery off, "0000" verifies the voter whatever code is stored |
| Otp.MissingCodeMatchesMissingCode | voting/views.py:207-210 | a voter with no stored code is verified by a POST with no code field, even with delivery on |
| Otp.Dashboard | voting/views.py:116-139 | a voter who has voted sees the results and is unchanged; otherwise a voter with no code or not verified goes to verification when delivery is on, or is given "0000" and verified when it is off; a voter who holds a code and is verified reaches the ballot unchanged |
| Otp.DashboardWithoutOtp | voting/views.py:129-139 | with delivery off, a voter who has not voted reaches the ballot on the first visit, and a second visit changes nothing |
| Otp.Bypassed | voting/views.py:175 | a voter changes iff they have no code and are not verified; such a voter gets "0000" and is verified |
| Selection.Selected | voting/views.py:292-308 | a multi-select position reads every value under slug + "[]" (none when the key is absent); a single-select one reads exactly the first value under slug when there is one, and nothing otherwise |
| Selection.WithinCap | voting/views.py:294 | a position that passes the cap check has at most Cap choices |
| Selection.PicksFor | voting/views.py:297-303 | resolves at most one choice per reference |
| Selection.PicksForComplete | voting/views.py:297-303 | every reference that finds a candidate of the position is recorded as a choice of that candidate |
| Selection.PicksForPosition | voting/views.py:300 | every resolved choice is recorded under the position being visited |
| Selection.PicksForCandidates | voting/views.py:299 | every resolved choice names a candidate standing for the position |
| Selection.ResolveAll | voting/views.py:289-312 | only a multi-select position can stop the loop |
| Selection.ResolveLegitimate | voting/views.py:290-312 | every recorded choice names a candidate standing for a visited position and is recorded under that position |
| Selection.RefusalIsOverCap | voting/views.py:290-312 | a refusal names a visited position that has more choices than its max_vote |
| Selection.NoOverCapResolves | voting/views.py:290-312 | with no position over its cap, the loop runs to the end |
| Selection.ResolvedHasNoOverCap | voting/views.py:294-296 | a loop that ran to the end met no position over its cap |
| Selection.ResolveRefusesIffOverCap | voting/views.py:290-296 | the submission is refused iff some position has more choices than its max_vote |
| Selection.RefusalSticks | voting/views.py:296 | once the loop stops at a position, later positions change nothing |
| Selection.PrefixResolves | voting/views.py:290-296 | the loop passes without refusal through any run of positions none of which is over its cap |
| Selection.ResolveStopsAtFirstOverCap | voting/views.py:290-296 | the refusal names the first position over its cap and keeps the choices for the positions before it |
| Selection.ResolvePicksGrow | voting/views.py:290-312 | the choices recorded over the first n positions begin the choices recorded over all of them |
| Selection.ResolveComplete | voting/views.py:290-312 | every reference posted for a position the loop got past and naming a candidate of that position is recorded as a choice |
| Selection.ResolveWithinCaps | voting/views.py:290-312 | one submission records at most max_vote choices for a multi-select position and at most one for a single-select position, whether or not it is refused |
| Selection.NamesFor | voting/views.py:252-257 | lists one name for every reference that resolves |
| Selection.NamesForPicks | voting/views.py:252-257 | the k-th name is the full name of a candidate of the position with the id of the k-th choice the submission records for the same references |
| Selection.PreviewOf | voting/views.py:230-268 | only a multi-select position can stop the preview |
| Selection.PreviewRefusalSticks | voting/views.py:246-249 | once the preview stops at a position, later positions change nothing |
| Selection.PreviewAgreesWithSubmission | voting/views.py:240-268 | the preview stops at a position iff the submission is refused there, and its names, in order, are the full names of the candidates of the choices the submission records |
| Selection.BallotMatchesSubmission | voting/views.py:37-47 | each ballot entry posts under the key the submission reads, uses a checkbox iff the position is multi-select, and every candidate id it offers resolves to that candidate under that position |
| Submission.Cleaned | voting/views.py:281-283 | the form without the CSRF token and the submit button, with every other key and value kept |
| Submission.ToVotesSpec | voting/views.py:300 | one vote per choice, in order, each for the voter and the choice's candidate and position |
| Submission.ToVotesOwner | voting/views.py:300 | the created votes all belong to the voter and to nobody else |
| Submission.ToVotesAtPosition | voting/views.py:300 | the created votes hold as many votes for a position as the choices do |
| Submission.Submit | voting/views.py:271-322 | the voter table keeps its size and changes iff the submission is recorded |
| Submission.SubmitGuards | voting/views.py:271-287 | "not POST" iff the request is not a POST; "already voted" iff a POST comes from a voter who has voted; a POST by a voter who has not voted with an empty cleaned form is answered "nothing selected" and leaves both tables unchanged; with a non-empty form the answer is "too many selections" iff the position loop refuses; only a recorded submission changes a voter, and it sets that voter's voted flag |
| Submission.SubmitOwnVotes | voting/views.py:289-320 | a recorded submission leaves the voter holding exactly the chosen votes; a rollback leaves none; a refusal keeps the voter's earlier votes plus those created before the refusal |
| Submission.SubmitOtherVotes | voting/views.py:297-315 | every other voter keeps exactly their votes, whatever the outcome |
| Submission.SubmitRecordsEveryChoice | voting/views.py:289-320 | a recorded submission, or one refused at a later position, leaves the voter with a vote for every resolving reference of a position the loop got past |
| Submission.EmptyBallotRecorded | voting/views.py:285-320 | a non-empty form whose choices resolve to nothing marks a voter holding no votes as having voted, with no votes created |
| Submission.CommitIffNoLeftovers | voting/views.py:314-320 | a complete submission is recorded iff the voter held no votes before it; otherwise it is rolled back |
| Submission.RefusalThenRollbackThenCommit | voting/views.py:294-320 | a refusal that created votes makes the next complete submission roll back and the one after it be recorded with exactly its choices |
| Submission.AppendNamesCandidates | voting/views.py:297-312 | appending votes for legitimate choices keeps every vote naming a candidate of its position |
| Submission.SubmitKeepsCaps | voting/views.py:271-322 | after a submission no voter marked as having voted holds more votes for a position than it allows |
| Submission.SubmitPreserves | voting/views.py:271-322 | every submission keeps the table invariant |
| Views.ElectionStore.GenerateBallot | voting/views.py:19-104 | returns the ballot of the positions as they were, rewrites the priorities as a render does, changes no other table, and keeps the invariant |
| Views.ElectionStore.RenderInOrder | voting/views.py:25-101 | the loop over the listed positions: returns the entry of each listed position in listing order and gives the k-th listed position priority k + 1, changing no other table |
| Views.RenumberedKeepsInvariant | voting/views.py:99-101 | renumbering keeps the position ids unique and every voted voter within the caps |
| Views.ElectionStore.Dashboard | voting/views.py:116-139 | updates the voter and routes as `Otp.Dashboard` says; a voter who has voted gets exactly their votes; no other table changes |
| Views.ElectionStore.ResendOtp | voting/views.py:146-171 | updates the voter and replies as `Otp.Resend` says; no other voter or table changes |
| Views.ElectionStore.BypassOtp | voting/views.py:174-176 | applies `Otp.Bypassed` to every voter and changes no other table |
| Views.ElectionStore.VerifyOtp | voting/views.py:202-217 | a non-POST changes nothing; a POST applies `Otp.Verify`; the ballot is reached iff the code is accepted |
| Views.ElectionStore.ShowBallot | voting/views.py:220-227 | no ballot and no change iff the voter has voted; otherwise the ballot without controls, with priorities rewritten |
| Views.ElectionStore.PreviewVote | voting/views.py:230-268 | "invalid access" for a non-POST; otherwise the groups and the stopping position of `Selection.PreviewOf` |
| Views.ElectionStore.RecordChoices | voting/views.py:297-303 | appends exactly the votes of the references that resolve, and counts them |
| Views.ElectionStore.CastVotes | voting/views.py:289-312 | appends the votes of `Selection.ResolveAll`, reports the refusing position if there is one, and counts the votes created |
| Views.ElectionStore.SubmitBallot | voting/views.py:271-322 | leaves the tables and returns the outcome that `Submission.Submit` gives, and keeps the invariant |

## Left out

- HTML markup (`voting/views.py:39-97`, `251-264`) is left out. The model
  produces structured ballot entries and preview groups instead.
- The JSON and redirect plumbing is left out. Pages and replies are
  datatypes.
- User messages (`messages.*`) are left out, because they are only
  presentation.
- `send_sms` (`voting/views.py:179-199`) is left out because it is network
  I/O. Its result is the `delivered` input of `resend_otp`. The text of
  the SMS message is not modelled.
- `slugify` is library code. It is an uninterpreted function parameter.
- The randomness of `generate_otp` is left out. The draws are an input
  constrained to the ranges the code draws from.
- `index`, `verify` and `fetch_ballot` are left out because they only
  render or delegate.
- Django's ORM is left out. `Votes.objects.create` is assumed to succeed,
  so a failed create (which the code skips) is not modelled.
- Records.ParseId: accepts only non-empty ASCII digit strings. Python's
  `int()` also accepts surrounding whitespace, a sign, underscores between
  digits and non-ASCII decimal digits (such as fullwidth digits); such
  references are treated as unresolvable.
- Ballot.OrderByPriority: positions of equal priority keep store order.
  `order_by('priority')` leaves their order to the database, so the model
  fixes one admissible order; no proved property depends on the choice.
- Concurrent requests are left out; the model is sequential. That covers
  two racing submissions by one voter and concurrent renders writing
  priorities.
- The binding of a request to its voter is left out. The voter is an index
  into the voter table.
- `voting/models.py` is not part of this model. Column constraints and
  default ordering are not modelled beyond unique primary keys.
- Views.ElectionStore.GenerateBallot: each position is saved as its
  priority is written. A render interrupted midway is not modelled.

=== FILE: ballot.dfy ===
/** The ballot renderer: positions ordered by priority, one structured entry
    per position (widget, instruction, candidates, reorder controls), and
    the renumbering of priorities to 1..N that every render performs. */
module Ballot {
  import opened Wrappers
  import opened Records

  // ----- structured ballot ---------------------------------------------------

  datatype WidgetKind = Checkbox | Radio

  datatype Instruction = SelectOne | SelectUpTo(limit: nat)

  /** The move-up / move-down buttons shown to an administrator. */
  datatype Controls = Controls(upDisabled: bool, downDisabled: bool)

  /** One position's block of the ballot. `inputName` is the form field its
      inputs post under; `controls` is present only when controls are shown. */
  datatype Entry = Entry(
    positionId: Id,
    title: string,
    slug: string,
    kind: WidgetKind,
    inputName: string,
    instruction: Instruction,
    candidateIds: seq<Id>,
    controls: Option<Controls>)

  function InstructionText(i: Instruction): string {
    match i
    case SelectOne => "Select only one candidate"
    case SelectUpTo(n) => "You may select up to " + Decimal(n) + " candidates"
  }

  /** The entry for position `p` on a ballot of `count` positions; the
      reorder buttons are computed from the priority `p` has when it is
      rendered, before renumbering. */
  function EntryFor(p: Position, cs: seq<Candidate>, count: nat, displayControls: bool,
                    slugify: string -> string): Entry
  {
    var slug := slugify(p.name);
    Entry(p.id, p.name, slug,
          if p.maxVote > 1 then Checkbox else Radio,
          if p.maxVote > 1 then slug + "[]" else slug,
          if p.maxVote > 1 then SelectUpTo(p.maxVote) else SelectOne,
          IdsOf(CandidatesOf(cs, p.id)),
          if displayControls then Some(Controls(p.priority == 1, p.priority == count)) else None)
  }

  // ----- ordering by priority ------------------------------------------------

  predicate Distinct(s: seq<nat>) {
    forall a, b :: 0 <= a < b < |s| ==> s[a] != s[b]
  }

  predicate InRange(s: seq<nat>, n: nat) {
    forall k :: 0 <= k < |s| ==> s[k] < n
  }

  /** Index sequence `s` lists positions in non-decreasing priority. */
  predicate SortedByPriority(ps: seq<Position>, s: seq<nat>)
    requires InRange(s, |ps|)
  {
    forall a, b :: 0 <= a < b < |s| ==> ps[s[a]].priority <= ps[s[b]].priority
  }

  /** `order` lists every index below `n` exactly once. */
  ghost predicate Permutes(order: seq<nat>, n: nat) {
    |order| == n && InRange(order, n) && Distinct(order) &&
    forall i :: 0 <= i < n ==> i in order
  }

  /** `order` lists every index of `ps` exactly once, by ascending priority. */
  ghost predicate IsPriorityOrder(ps: seq<Position>, order: seq<nat>) {
    Permutes(order, |ps|) && SortedByPriority(ps, order)
  }

  function Range(n: nat): (r: seq<nat>)
    ensures |r| == n && forall k :: 0 <= k < n ==> r[k] == k
  {
    if n == 0 then [] else Range(n - 1) + [n - 1]
  }

  /** Inserts index `i` before the first index of no smaller priority. */
  function Insert(ps: seq<Position>, i: nat, s: seq<nat>): (r: seq<nat>)
    requires i < |ps| && InRange(s, |ps|)
    ensures InRange(r, |ps|)
    ensures multiset(r) == multiset(s) + multiset{i}
  {
    if s == [] then [i]
    else if ps[i].priority <= ps[s[0]].priority then [i] + s
    else
      assert s == [s[0]] + s[1..];
      [s[0]] + Insert(ps, i, s[1..])
  }

  lemma {:induction false} InsertSorted(ps: seq<Position>, i: nat, s: seq<nat>)
    requires i < |ps| && InRange(s, |ps|) && SortedByPriority(ps, s)
    ensures SortedByPriority(ps, Insert(ps, i, s))
  {
    if s != [] && ps[i].priority > ps[s[0]].priority {
      var rest := Insert(ps, i, s[1..]);
      InsertSorted(ps, i, s[1..]);
      forall k | 0 <= k < |rest|
        ensures ps[s[0]].priority <= ps[rest[k]].priority
      {
        assert rest[k] in multiset(rest);
        if rest[k] != i {
          assert rest[k] in multiset(s[1..]);
          var j :| 0 <= j < |s[1..]| && s[1..][j] == rest[k];
          assert s[j + 1] == rest[k];
        }
      }
    }
  }

  lemma {:induction false} InsertDistinct(ps: seq<Position>, i: nat, s: seq<nat>)
    requires i < |ps| && InRange(s, |ps|) && Distinct(s) && i !in s
    ensures Distinct(Insert(ps, i, s))
  {
    if s != [] && ps[i].priority > ps[s[0]].priority {
      var rest := Insert(ps, i, s[1..]);
      InsertDistinct(ps, i, s[1..]);
      forall k | 0 <= k < |rest|
        ensures rest[k] != s[0]
      {
        assert rest[k] in multiset(rest);
        if rest[k] != i {
          assert rest[k] in multiset(s[1..]);
          var j :| 0 <= j < |s[1..]| && s[1..][j] == rest[k];
          assert s[j + 1] == rest[k];
        }
      }
    }
  }

  /** A stable insertion sort of the indices `idx` by priority. */
  function SortIndices(ps: seq<Position>, idx: seq<nat>): (r: seq<nat>)
    requires InRange(idx, |ps|)
    ensures InRange(r, |ps|)
    ensures multiset(r) == multiset(idx)
  {
    if idx == [] then []
    else
      assert idx == [idx[0]] + idx[1..];
      Insert(ps, idx[0], SortIndices(ps, idx[1..]))
  }

  lemma {:induction false} SortIndicesSorted(ps: seq<Position>, idx: seq<nat>)
    requires InRange(idx, |ps|)
    ensures SortedByPriority(ps, SortIndices(ps, idx))
    ensures Distinct(idx) ==> Distinct(SortIndices(ps, idx))
  {
    if idx != [] {
      var rest := SortIndices(ps, idx[1..]);
      SortIndicesSorted(ps, idx[1..]);
      InsertSorted(ps, idx[0], rest);
      if Distinct(idx) {
        assert Distinct(idx[1..]);
        assert idx[0] !in idx[1..];
        assert idx[0] !in multiset(rest);
        InsertDistinct(ps, idx[0], rest);
      }
    }
  }

  /** The record store's `order_by('priority')`: every position once, by
      ascending priority, ties kept in store order. */
  function OrderByPriority(ps: seq<Position>): (order: seq<nat>)
    ensures IsPriorityOrder(ps, order)
  {
    var order := SortIndices(ps, Range(|ps|));
    SortIndicesSorted(ps, Range(|ps|));
    RangeCovered(|ps|, order);
    order
  }

  lemma RangeCovered(n: nat, order: seq<nat>)
    requires multiset(order) == multiset(Range(n))
    ensures forall i :: 0 <= i < n ==> i in order
  {
    forall i | 0 <= i < n
      ensures i in order
    {
      assert Range(n)[i] == i;
      assert i in multiset(Range(n));
    }
  }

  // ----- renumbering ---------------------------------------------------------

  /** Gives the position at rank k of `order` the priority k + 1. */
  function Renumber(ps: seq<Position>, order: seq<nat>): (r: seq<Position>)
    requires InRange(order, |ps|)
    ensures |r| == |ps|
    decreases |order|
  {
    if order == [] then ps
    else
      var q := Renumber(ps, order[..|order| - 1]);
      var i := order[|order| - 1];
      q[i := q[i].(priority := |order|)]
  }

  /** The position at rank k gets priority k + 1, a position `order` does
      not list keeps its record, and only priorities change. */
  lemma {:induction false} RenumberSpec(ps: seq<Position>, order: seq<nat>)
    requires InRange(order, |ps|) && Distinct(order)
    ensures forall k :: 0 <= k < |order| ==> Renumber(ps, order)[order[k]] == ps[order[k]].(priority := k + 1)
    ensures forall i :: 0 <= i < |ps| && i !in order ==> Renumber(ps, order)[i] == ps[i]
    ensures forall i :: 0 <= i < |ps| ==>
      Renumber(ps, order)[i] == ps[i].(priority := Renumber(ps, order)[i].priority)
    decreases |order|
  {
    if order != [] {
      var front := order[..|order| - 1];
      var last := order[|order| - 1];
      var q := Renumber(ps, front);
      var r := Renumber(ps, order);
      RenumberSpec(ps, front);
      assert r == q[last := q[last].(priority := |order|)];
      forall k | 0 <= k < |order|
        ensures r[order[k]] == ps[order[k]].(priority := k + 1)
      {
        if k < |order| - 1 {
          assert order[k] == front[k] && order[k] != last;
        } else {
          assert last !in front;
        }
      }
      forall i | 0 <= i < |ps| && i !in order
        ensures r[i] == ps[i]
      {
        assert i != last;
        assert i !in front;
      }
    }
  }

  /** Renumbering one more position: it gets the next priority, and it
      still holds its original record when it is reached. */
  lemma RenumberStep(ps: seq<Position>, order: seq<nat>, k: nat)
    requires InRange(order, |ps|) && Distinct(order) && k < |order|
    ensures InRange(order[..k], |ps|) && InRange(order[..k + 1], |ps|)
    ensures Renumber(ps, order[..k])[order[k]] == ps[order[k]]
    ensures Renumber(ps, order[..k + 1]) == Renumber(ps, order[..k])[order[k] := ps[order[k]].(priority := k + 1)]
  {
    var front := order[..k];
    assert order[..k + 1][..k] == front;
    assert Distinct(front);
    assert order[k] !in front;
    RenumberSpec(ps, front);
  }

  /** The positions after one render: priorities rewritten to ranks. */
  function Renumbered(ps: seq<Position>): (r: seq<Position>)
    ensures |r| == |ps|
  {
    Renumber(ps, OrderByPriority(ps))
  }

  /** Priorities are exactly 1..N, each used once. */
  ghost predicate Ranked(ps: seq<Position>) {
    (forall i :: 0 <= i < |ps| ==> 1 <= ps[i].priority <= |ps|) &&
    (forall i, j :: 0 <= i < j < |ps| ==> ps[i].priority != ps[j].priority)
  }

  /** The set of priorities of a list of positions. */
  function Priorities(ps: seq<Position>): set<int> {
    set i | 0 <= i < |ps| :: ps[i].priority
  }

  /** The integers lo..hi. */
  function Span(lo: int, hi: int): (r: set<int>)
    ensures forall n :: n in r <==> lo <= n <= hi
    decreases hi - lo
  {
    if lo > hi then {} else {lo} + Span(lo + 1, hi)
  }

  /** Renumbering along any listing of all positions leaves the
      priorities exactly {1..N}, each used once. */
  lemma RenumberRanked(ps: seq<Position>, order: seq<nat>)
    requires Permutes(order, |ps|)
    ensures Ranked(Renumber(ps, order))
    ensures Priorities(Renumber(ps, order)) == Span(1, |ps|)
  {
    var r := Renumber(ps, order);
    RenumberInRange(ps, order);
    RenumberDistinct(ps, order);
    assert Ranked(r);
    RenumberCovers(ps, order);
  }

  /** Every index below `n` has a rank in a listing of all of them. */
  lemma RankOf(order: seq<nat>, n: nat, i: nat) returns (k: nat)
    requires Permutes(order, n) && i < n
    ensures k < n && order[k] == i
  {
    assert i in order;
    k :| 0 <= k < |order| && order[k] == i;
  }

  /** After renumbering by a full listing every priority lies in 1..N. */
  lemma RenumberInRange(ps: seq<Position>, order: seq<nat>)
    requires Permutes(order, |ps|)
    ensures forall i :: 0 <= i < |ps| ==> 1 <= Renumber(ps, order)[i].priority <= |ps|
  {
    var r := Renumber(ps, order);
    RenumberSpec(ps, order);
    forall i | 0 <= i < |ps|
      ensures 1 <= r[i].priority <= |ps|
    {
      var k := RankOf(order, |ps|, i);
      assert r[order[k]].priority == k + 1;
    }
  }

  /** After renumbering by a full listing no two positions share a priority. */
  lemma RenumberDistinct(ps: seq<Position>, order: seq<nat>)
    requires Permutes(order, |ps|)
    ensures forall i, j :: 0 <= i < j < |ps| ==>
      Renumber(ps, order)[i].priority != Renumber(ps, order)[j].priority
  {
    var r := Renumber(ps, order);
    RenumberSpec(ps, order);
    forall i, j | 0 <= i < j < |ps|
      ensures r[i].priority != r[j].priority
    {
      var ki := RankOf(order, |ps|, i);
      var kj := RankOf(order, |ps|, j);
      assert r[order[ki]].priority == ki + 1;
      assert r[order[kj]].priority == kj + 1;
    }
  }

  /** After renumbering by a full listing every value 1..N is some priority. */
  lemma RenumberCovers(ps: seq<Position>, order: seq<nat>)
    requires Permutes(order, |ps|)
    ensures Priorities(Renumber(ps, order)) == Span(1, |ps|)
  {
    var r := Renumber(ps, order);
    RenumberSpec(ps, order);
    forall n | n in Span(1, |ps|)
      ensures n in Priorities(r)
    {
      assert r[order[n - 1]].priority == n;
    }
    forall n | n in Priorities(r)
      ensures n in Span(1, |ps|)
    {
      var i :| 0 <= i < |ps| && r[i].priority == n;
      var k := RankOf(order, |ps|, i);
      assert r[order[k]].priority == k + 1;
    }
  }

  /** After a render the position at rank k (ascending old priority) has
      priority k + 1, so the priorities are exactly {1..N}, each used once;
      nothing but the priority changes. */
  lemma RenumberedRanks(ps: seq<Position>)
    ensures var order := OrderByPriority(ps);
      var r := Renumbered(ps);
      |r| == |ps| && Ranked(r) && Priorities(r) == Span(1, |ps|) &&
      forall k :: 0 <= k < |ps| ==> r[order[k]] == ps[order[k]].(priority := k + 1)
  {
    RenumberRanked(ps, OrderByPriority(ps));
    RenumberSpec(ps, OrderByPriority(ps));
  }

  /** The gaps between the values of a strictly increasing integer sequence
      are at least the gaps between their indices. */
  lemma {:induction false} IncreasingSpread(s: seq<int>, i: nat, j: nat)
    requires forall a, b :: 0 <= a < b < |s| ==> s[a] < s[b]
    requires i <= j < |s|
    ensures s[j] - s[i] >= j - i
    decreases j - i
  {
    if i < j {
      IncreasingSpread(s, i, j - 1);
    }
  }

  /** When the priorities already are exactly 1..N, the priority order puts
      priority k + 1 at rank k. */
  lemma RankedOrder(ps: seq<Position>)
    requires Ranked(ps)
    ensures var order := OrderByPriority(ps);
      forall k :: 0 <= k < |ps| ==> ps[order[k]].priority == k + 1
  {
    var order := OrderByPriority(ps);
    var s := seq(|ps|, k requires 0 <= k < |ps| => ps[order[k]].priority);
    forall a, b | 0 <= a < b < |s|
      ensures s[a] < s[b]
    {
      assert order[a] != order[b];
      if order[a] < order[b] {
        assert ps[order[a]].priority != ps[order[b]].priority;
      } else {
        assert ps[order[b]].priority != ps[order[a]].priority;
      }
    }
    forall k | 0 <= k < |ps|
      ensures ps[order[k]].priority == k + 1
    {
      IncreasingSpread(s, 0, k);
      IncreasingSpread(s, k, |ps| - 1);
    }
  }

  /** A render over priorities that are already 1..N changes nothing. */
  lemma RankedIsFixed(ps: seq<Position>)
    requires Ranked(ps)
    ensures Renumbered(ps) == ps
  {
    var order := OrderByPriority(ps);
    var r := Renumbered(ps);
    RankedOrder(ps);
    RenumberSpec(ps, order);
    forall i | 0 <= i < |ps|
      ensures r[i] == ps[i]
    {
      assert i in order;
      var k :| 0 <= k < |order| && order[k] == i;
    }
  }

  /** Rendering twice leaves the priorities the first render wrote. */
  lemma RenumberedIdempotent(ps: seq<Position>)
    ensures Renumbered(Renumbered(ps)) == Renumbered(ps)
  {
    RenumberedRanks(ps);
    RankedIsFixed(Renumbered(ps));
  }

  // ----- the whole ballot ----------------------------------------------------

  /** The entries for the positions listed by `order`, in that order. */
  function Entries(ps: seq<Position>, order: seq<nat>, cs: seq<Candidate>, displayControls: bool,
                   slugify: string -> string): (r: seq<Entry>)
    requires InRange(order, |ps|)
    ensures |r| == |order|
    decreases |order|
  {
    if order == [] then []
    else
      Entries(ps, order[..|order| - 1], cs, displayControls, slugify)
        + [EntryFor(ps[order[|order| - 1]], cs, |ps|, displayControls, slugify)]
  }

  /** Entry k is rendered from the position at rank k. */
  lemma {:induction false} EntriesSpec(ps: seq<Position>, order: seq<nat>, cs: seq<Candidate>, displayControls: bool,
                                       slugify: string -> string)
    requires InRange(order, |ps|)
    ensures forall k :: 0 <= k < |order| ==>
      Entries(ps, order, cs, displayControls, slugify)[k] == EntryFor(ps[order[k]], cs, |ps|, displayControls, slugify)
    decreases |order|
  {
    if order != [] {
      var front := order[..|order| - 1];
      EntriesSpec(ps, front, cs, displayControls, slugify);
      forall k | 0 <= k < |order| - 1
        ensures Entries(ps, order, cs, displayControls, slugify)[k] == EntryFor(ps[order[k]], cs, |ps|, displayControls, slugify)
      {
        assert order[k] == front[k];
      }
    }
  }

  /** One more entry rendered. */
  lemma EntriesStep(ps: seq<Position>, order: seq<nat>, k: nat, cs: seq<Candidate>, displayControls: bool,
                    slugify: string -> string)
    requires InRange(order, |ps|) && k < |order|
    ensures Entries(ps, order[..k + 1], cs, displayControls, slugify) ==
      Entries(ps, order[..k], cs, displayControls, slugify) + [EntryFor(ps[order[k]], cs, |ps|, displayControls, slugify)]
  {
    assert order[..k + 1][..k] == order[..k];
  }

  /** The ballot rendered from the positions as they were before the render. */
  function BallotOf(ps: seq<Position>, cs: seq<Candidate>, displayControls: bool,
                    slugify: string -> string): (r: seq<Entry>)
    ensures |r| == |ps|
  {
    Entries(ps, OrderByPriority(ps), cs, displayControls, slugify)
  }

  /** What the entry `e` for position `p` shows on a ballot of `count`
      positions: a checkbox group named slug + "[]" with "You may select up
      to N candidates" when max_vote > 1, else a radio group named slug
      with "Select only one candidate"; exactly the position's candidates,
      possibly none; and, only when controls are shown, "up" disabled iff
      the priority is 1 and "down" disabled iff it equals `count`. */
  ghost predicate Shows(e: Entry, p: Position, cs: seq<Candidate>, count: nat, displayControls: bool,
                        slugify: string -> string)
  {
    e.positionId == p.id && e.title == p.name && e.slug == slugify(p.name) &&
    (e.kind == Checkbox <==> p.maxVote > 1) &&
    (e.kind == Checkbox ==>
       e.inputName == slugify(p.name) + "[]" &&
       InstructionText(e.instruction) == "You may select up to " + Decimal(p.maxVote) + " candidates") &&
    (e.kind == Radio ==>
       e.inputName == slugify(p.name) &&
       InstructionText(e.instruction) == "Select only one candidate") &&
    (forall c :: c in cs && c.positionId == p.id ==> c.id in e.candidateIds) &&
    (forall x :: x in e.candidateIds ==> exists c :: c in cs && c.id == x && c.positionId == p.id) &&
    (e.controls.Some? <==> displayControls) &&
    (e.controls.Some? ==>
       (e.controls.value.upDisabled <==> p.priority == 1) &&
       (e.controls.value.downDisabled <==> p.priority == count))
  }

  lemma EntryForShows(p: Position, cs: seq<Candidate>, count: nat, displayControls: bool,
                      slugify: string -> string)
    ensures Shows(EntryFor(p, cs, count, displayControls, slugify), p, cs, count, displayControls, slugify)
  {
    var e := EntryFor(p, cs, count, displayControls, slugify);
    var mine := CandidatesOf(cs, p.id);
    CandidatesOfSpec(cs, p.id);
    IdsOfSpec(mine);
    forall c | c in cs && c.positionId == p.id
      ensures c.id in e.candidateIds
    {
      var j :| 0 <= j < |mine| && mine[j] == c;
      assert e.candidateIds[j] == c.id;
    }
    forall x | x in e.candidateIds
      ensures exists c :: c in cs && c.id == x && c.positionId == p.id
    {
      var j :| 0 <= j < |mine| && e.candidateIds[j] == x;
      assert mine[j] in mine;
    }
  }

  /** The rendered ballot lists every position exactly once, by ascending
      priority, and each entry shows what `Shows` describes. */
  lemma BallotEntries(ps: seq<Position>, cs: seq<Candidate>, displayControls: bool,
                      slugify: string -> string)
    ensures var ballot := BallotOf(ps, cs, displayControls, slugify);
      var order := OrderByPriority(ps);
      |ballot| == |ps| &&
      (forall i :: 0 <= i < |ps| ==> exists k :: 0 <= k < |ballot| && ballot[k].positionId == ps[i].id) &&
      (forall k :: 0 <= k < |ballot| - 1 ==> ps[order[k]].priority <= ps[order[k + 1]].priority) &&
      (forall k :: 0 <= k < |ballot| ==> Shows(ballot[k], ps[order[k]], cs, |ps|, displayControls, slugify))
  {
    var ballot := BallotOf(ps, cs, displayControls, slugify);
    var order := OrderByPriority(ps);
    EntriesSpec(ps, order, cs, displayControls, slugify);
    forall i | 0 <= i < |ps|
      ensures exists k :: 0 <= k < |ballot| && ballot[k].positionId == ps[i].id
    {
      assert i in order;
      var k :| 0 <= k < |order| && order[k] == i;
      assert ballot[k].positionId == ps[i].id;
    }
    forall k | 0 <= k < |ballot|
      ensures Shows(ballot[k], ps[order[k]], cs, |ps|, displayControls, slugify)
    {
      EntryForShows(ps[order[k]], cs, |ps|, displayControls, slugify);
    }
  }
}

=== FILE: otp.dfy ===
/** The one-time-passcode service and the dashboard's routing: code
    generation, resending with a send counter, code verification, the
    automatic verification when delivery is switched off, and the bulk
    bypass. Each operation is given here as the function of a voter record
    that the corresponding view applies in place. */
module Otp {
  import opened Wrappers
  import opened Records

  /** Delivery attempts after which a voter must use the last code sent. */
  const SendLimit := 3

  /** The fixed code used when OTP delivery is switched off. */
  const BypassCode := "0000"

  // ----- generate_otp --------------------------------------------------------

  /** The random draws behind one code: a length drawn from 5..8, then that
      many digits drawn from 1..9. */
  predicate ValidDraws(draws: seq<int>) {
    5 <= |draws| <= 8 && forall k :: 0 <= k < |draws| ==> 1 <= draws[k] <= 9
  }

  /** The decimal digits spelling the given digit values, one for one. */
  function DigitsOf(draws: seq<int>): (code: string)
    requires forall k :: 0 <= k < |draws| ==> 0 <= draws[k] <= 9
    ensures |code| == |draws|
    ensures forall k :: 0 <= k < |code| ==> IsDigit(code[k]) && DigitValue(code[k]) == draws[k]
    decreases |draws|
  {
    if draws == [] then [] else DigitsOf(draws[..|draws| - 1]) + [DigitChar(draws[|draws| - 1])]
  }

  /** A fresh code: 5 to 8 characters, each a digit from '1' to '9'. */
  function GenerateOtp(draws: seq<int>): (code: string)
    requires ValidDraws(draws)
    ensures 5 <= |code| <= 8
    ensures forall k :: 0 <= k < |code| ==> '1' <= code[k] <= '9'
  {
    DigitsOf(draws)
  }

  // ----- resend_otp ------------------------------------------------------------

  datatype ResendReply = OtpSent | LimitReached | DeliveryFailed | OtpNotRequired {
    /** The `error` flag of the reply. */
    predicate IsError() {
      this == LimitReached || this == DeliveryFailed
    }
  }

  /** The code a resend sends: the voter's existing non-empty code, else a
      fresh one (an empty stored string counts as no code). */
  function CodeToSend(otp: Option<string>, draws: seq<int>): string
    requires ValidDraws(draws)
  {
    if otp.Some? && otp.value != "" then otp.value else GenerateOtp(draws)
  }

  /** resend_otp on voter `w`; `delivered` is what the SMS gateway reports. */
  function Resend(w: Voter, sendOtp: bool, draws: seq<int>, delivered: bool): (r: (Voter, ResendReply))
    requires ValidDraws(draws)
    ensures r.0.id == w.id && r.0.phone == w.phone && r.0.verified == w.verified && r.0.voted == w.voted
    ensures r.1.IsError() <==> sendOtp && (w.otpSent >= SendLimit || !delivered)
    ensures r.0.otpSent == w.otpSent + (if r.1 == OtpSent then 1 else 0)
    ensures r.1 == LimitReached || r.1 == OtpNotRequired ==> r.0 == w
    ensures r.1 == OtpSent || r.1 == DeliveryFailed ==> r.0.otp == Some(CodeToSend(w.otp, draws))
    ensures !sendOtp ==> r == (w, OtpNotRequired)
    ensures sendOtp && w.otpSent >= SendLimit ==> r == (w, LimitReached)
    ensures sendOtp && w.otpSent < SendLimit ==> r.1 == (if delivered then OtpSent else DeliveryFailed)
  {
    if sendOtp then
      if w.otpSent >= SendLimit then (w, LimitReached)
      else
        var saved := w.(otp := Some(CodeToSend(w.otp, draws)));
        if delivered then (saved.(otpSent := saved.otpSent + 1), OtpSent)
        else (saved, DeliveryFailed)
    else (w, OtpNotRequired)
  }

  /** The send counter never passes the limit through resends. */
  lemma ResendWithinLimit(w: Voter, sendOtp: bool, draws: seq<int>, delivered: bool)
    requires ValidDraws(draws) && w.otpSent <= SendLimit
    ensures Resend(w, sendOtp, draws, delivered).0.otpSent <= SendLimit
  {
  }

  /** Three successful sends reach the limit; the fourth request is refused
      and changes nothing. The code issued first is the code sent every time. */
  lemma FourthResendRefused(w: Voter, d1: seq<int>, d2: seq<int>, d3: seq<int>, d4: seq<int>)
    requires w.otpSent == 0
    requires ValidDraws(d1) && ValidDraws(d2) && ValidDraws(d3) && ValidDraws(d4)
    ensures var r1 := Resend(w, true, d1, true);
      var r2 := Resend(r1.0, true, d2, true);
      var r3 := Resend(r2.0, true, d3, true);
      var r4 := Resend(r3.0, true, d4, true);
      r1.1 == OtpSent && r2.1 == OtpSent && r3.1 == OtpSent &&
      r3.0.otpSent == SendLimit && r4 == (r3.0, LimitReached) &&
      r1.0.otp == r2.0.otp == r3.0.otp == Some(CodeToSend(w.otp, d1))
  {
    var r1 := Resend(w, true, d1, true);
    assert r1.0.otp.value != "" by {
      if w.otp.Some? && w.otp.value != "" {
      } else {
        assert |GenerateOtp(d1)| >= 5;
      }
    }
  }

  // ----- verify_otp ------------------------------------------------------------

  /** verify_otp's acceptance test: the posted code equals the stored one
      (a missing posted code equals a missing stored code), or delivery is
      switched off and the posted code is "0000". */
  predicate Accepts(stored: Option<string>, posted: Option<string>, sendOtp: bool) {
    stored == posted || (!sendOtp && posted == Some(BypassCode))
  }

  /** verify_otp on voter `w` for a POST carrying `posted`. */
  function Verify(w: Voter, posted: Option<string>, sendOtp: bool): (r: Voter)
    ensures r.verified <==> w.verified || Accepts(w.otp, posted, sendOtp)
    ensures r == w.(verified := r.verified)
  {
    if Accepts(w.otp, posted, sendOtp) then w.(verified := true) else w
  }

  /** The code the SMS of a successful resend carries verifies the voter,
      and any later resend keeps that code, so it keeps verifying. */
  lemma DeliveredCodeVerifies(w: Voter, sendOtp: bool, draws: seq<int>, later: seq<int>, delivered: bool)
    requires ValidDraws(draws) && ValidDraws(later)
    ensures var r := Resend(w, sendOtp, draws, true);
      var sent := CodeToSend(w.otp, draws);
      r.1 == OtpSent ==>
        Verify(r.0, Some(sent), sendOtp).verified &&
        Resend(r.0, sendOtp, later, delivered).0.otp == Some(sent) &&
        Verify(Resend(r.0, sendOtp, later, delivered).0, Some(sent), sendOtp).verified
  {
    var sent := CodeToSend(w.otp, draws);
    if !(w.otp.Some? && w.otp.value != "") {
      assert |GenerateOtp(draws)| >= 5;
    }
    assert sent != "";
  }

  /** With delivery on, a posted code other than the stored one verifies
      nobody who is not verified already. */
  lemma WrongCodeRejected(w: Voter, posted: Option<string>)
    requires posted != w.otp
    ensures Verify(w, posted, true) == w
  {
  }

  /** With delivery off, "0000" verifies any voter whatever code is stored. */
  lemma BypassCodeAccepted(w: Voter, stored: Option<string>)
    ensures Verify(w.(otp := stored), Some(BypassCode), false).verified
  {
  }

  /** As written, a voter with no stored code is verified by a POST that
      carries no code field at all, even with delivery on. */
  lemma MissingCodeMatchesMissingCode(w: Voter)
    requires w.otp == None
    ensures Verify(w, None, true).verified
  {
  }

  // ----- dashboard ---------------------------------------------------------------

  /** Where the dashboard sends a voter. */
  datatype Stage = ShowResults | GoVerify | GoBallot

  /** The dashboard's routing and automatic verification for voter `w`. */
  function Dashboard(w: Voter, sendOtp: bool): (r: (Voter, Stage))
    ensures r.0.id == w.id && r.0.phone == w.phone && r.0.voted == w.voted && r.0.otpSent == w.otpSent
    ensures r.1 == ShowResults <==> w.voted
    ensures w.voted || sendOtp ==> r.0 == w
    ensures r.1 == GoVerify <==> !w.voted && sendOtp && (w.otp.None? || !w.verified)
    ensures r.1 == GoBallot ==> !r.0.voted && r.0.verified && r.0.otp.Some?
    ensures !sendOtp && !w.voted && (w.otp.None? || !w.verified) ==>
      r.0 == w.(otp := Some(BypassCode), verified := true)
    ensures !w.voted && w.otp.Some? && w.verified ==> r == (w, GoBallot)
  {
    if w.voted then (w, ShowResults)
    else if w.otp.None? || !w.verified then
      if !sendOtp then (w.(otp := Some(BypassCode), verified := true), GoBallot)
      else (w, GoVerify)
    else (w, GoBallot)
  }

  /** With delivery off, every voter who has not voted reaches the ballot
      on the first dashboard visit, and a second visit changes nothing. */
  lemma DashboardWithoutOtp(w: Voter)
    requires !w.voted
    ensures var r := Dashboard(w, false);
      r.1 == GoBallot && Dashboard(r.0, false) == (r.0, GoBallot)
  {
  }

  // ----- bypass_otp --------------------------------------------------------------

  /** A voter who has never been issued a code and is not verified. */
  predicate Pending(w: Voter) {
    w.otp.None? && !w.verified
  }

  /** bypass_otp's update applied to one voter. */
  function Bypassed(w: Voter): (r: Voter)
    ensures r != w <==> Pending(w)
    ensures !Pending(r)
    ensures Pending(w) ==> r.otp == Some(BypassCode) && r.verified
    ensures r.id == w.id && r.phone == w.phone && r.voted == w.voted && r.otpSent == w.otpSent
  {
    if Pending(w) then w.(otp := Some(BypassCode), verified := true) else w
  }
}

=== FILE: records.dfy ===
/** The four record kinds of the voting application (Position, Candidate,
    Voter, Vote), the posted form, the decimal spelling of record ids, and
    the record-store queries the views run: candidate lookup by id and
    position, candidate listing by position, and vote filtering by voter. */
module Records {
  import opened Wrappers

  /** Primary keys of the record store. */
  type Id = nat

  /** An electable office. `maxVote` > 1 makes it multi-select. */
  datatype Position = Position(id: Id, name: string, priority: int, maxVote: int)

  /** A candidate standing for exactly one position. */
  datatype Candidate = Candidate(id: Id, positionId: Id, fullname: string, bio: string, photo: string)

  /** A voter; `otp` is a nullable column. */
  datatype Voter = Voter(id: Id, phone: string, otp: Option<string>, otpSent: int, verified: bool, voted: bool)

  /** One recorded choice of one voter. */
  datatype Vote = Vote(voterId: Id, candidateId: Id, positionId: Id)

  /** A POSTed form as a plain dictionary: every key holds the list of its values. */
  type Form = map<string, seq<string>>

  // ----- decimal spelling of ids -------------------------------------------

  predicate IsDigit(c: char) {
    '0' <= c <= '9'
  }

  function DigitChar(d: nat): (c: char)
    requires d < 10
    ensures IsDigit(c)
  {
    (d + '0' as int) as char
  }

  function DigitValue(c: char): nat
    requires IsDigit(c)
  {
    c as int - '0' as int
  }

  /** The decimal text of `n`, as it is written into a ballot's input values. */
  function Decimal(n: nat): (s: string)
    ensures |s| >= 1
    ensures forall i :: 0 <= i < |s| ==> IsDigit(s[i])
    decreases n
  {
    if n < 10 then [DigitChar(n)] else Decimal(n / 10) + [DigitChar(n % 10)]
  }

  function DigitsValue(s: string): nat
    requires forall i :: 0 <= i < |s| ==> IsDigit(s[i])
    decreases |s|
  {
    if s == [] then 0 else DigitsValue(s[..|s| - 1]) * 10 + DigitValue(s[|s| - 1])
  }

  /** How a posted candidate reference becomes a primary key: a non-empty
      string of decimal digits; anything else fails to convert. */
  function ParseId(s: string): (r: Option<Id>)
    ensures r.Some? <==> |s| > 0 && forall i :: 0 <= i < |s| ==> IsDigit(s[i])
  {
    if |s| > 0 && forall i :: 0 <= i < |s| ==> IsDigit(s[i]) then Some(DigitsValue(s)) else None
  }

  /** Writing an id in decimal and reading it back gives the id. */
  lemma {:induction false} DecimalRoundTrip(n: Id)
    ensures ParseId(Decimal(n)) == Some(n)
  {
    DecimalValue(n);
  }

  lemma {:induction false} DecimalValue(n: nat)
    ensures DigitsValue(Decimal(n)) == n
    decreases n
  {
    var s := Decimal(n);
    if n >= 10 {
      DecimalValue(n / 10);
      assert s[..|s| - 1] == Decimal(n / 10);
    }
  }

  // ----- uniqueness of primary keys ------------------------------------------

  ghost predicate UniquePositionIds(ps: seq<Position>) {
    forall i, j :: 0 <= i < j < |ps| ==> ps[i].id != ps[j].id
  }

  ghost predicate UniqueCandidateIds(cs: seq<Candidate>) {
    forall i, j :: 0 <= i < j < |cs| ==> cs[i].id != cs[j].id
  }

  ghost predicate UniqueVoterIds(vs: seq<Voter>) {
    forall i, j :: 0 <= i < j < |vs| ==> vs[i].id != vs[j].id
  }

  // ----- candidate queries ---------------------------------------------------

  /** The first candidate with primary key `id` standing for position `positionId`. */
  function FindById(cs: seq<Candidate>, id: Id, positionId: Id): (r: Option<Candidate>)
    ensures r.Some? ==> r.value.id == id && r.value.positionId == positionId
  {
    if cs == [] then None
    else if cs[0].id == id && cs[0].positionId == positionId then Some(cs[0])
    else FindById(cs[1..], id, positionId)
  }

  /** The search finds a candidate with that id standing for that position,
      or there is none. */
  lemma {:induction false} FindByIdSound(cs: seq<Candidate>, id: Id, positionId: Id)
    ensures FindById(cs, id, positionId).Some? ==>
      FindById(cs, id, positionId).value in cs &&
      FindById(cs, id, positionId).value.id == id && FindById(cs, id, positionId).value.positionId == positionId
    ensures FindById(cs, id, positionId).None? ==>
      forall c :: c in cs ==> !(c.id == id && c.positionId == positionId)
  {
    if cs != [] && !(cs[0].id == id && cs[0].positionId == positionId) {
      FindByIdSound(cs[1..], id, positionId);
      assert cs == [cs[0]] + cs[1..];
    }
  }

  /** Candidate lookup by a posted reference and a position. A reference
      that does not convert to an id, or names no candidate of that
      position, finds nothing. */
  function FindCandidate(cs: seq<Candidate>, ref: string, positionId: Id): (r: Option<Candidate>)
    ensures r.Some? ==> ParseId(ref) == Some(r.value.id) && r.value.positionId == positionId
  {
    match ParseId(ref)
    case None => None
    case Some(id) => FindById(cs, id, positionId)
  }

  /** The lookup finds a candidate whose id the reference spells and who
      stands for the position, or no such candidate exists. */
  lemma FindCandidateSound(cs: seq<Candidate>, ref: string, positionId: Id)
    ensures FindCandidate(cs, ref, positionId).Some? ==>
      FindCandidate(cs, ref, positionId).value in cs &&
      ParseId(ref) == Some(FindCandidate(cs, ref, positionId).value.id) &&
      FindCandidate(cs, ref, positionId).value.positionId == positionId
    ensures FindCandidate(cs, ref, positionId).None? ==>
      forall c :: c in cs ==> !(ParseId(ref) == Some(c.id) && c.positionId == positionId)
  {
    if ParseId(ref).Some? {
      FindByIdSound(cs, ParseId(ref).value, positionId);
    }
  }

  /** With unique candidate ids, looking up the decimal text of a
      candidate's id under its own position finds that candidate. */
  lemma FindCandidateByDecimal(cs: seq<Candidate>, k: nat)
    requires UniqueCandidateIds(cs) && k < |cs|
    ensures FindCandidate(cs, Decimal(cs[k].id), cs[k].positionId) == Some(cs[k])
  {
    DecimalRoundTrip(cs[k].id);
    FindCandidateSound(cs, Decimal(cs[k].id), cs[k].positionId);
    assert cs[k] in cs;
  }

  /** The candidates standing for a position, in store order. */
  function CandidatesOf(cs: seq<Candidate>, positionId: Id): (r: seq<Candidate>)
    ensures |r| <= |cs|
  {
    if cs == [] then []
    else if cs[0].positionId == positionId then [cs[0]] + CandidatesOf(cs[1..], positionId)
    else CandidatesOf(cs[1..], positionId)
  }

  /** CandidatesOf keeps exactly the candidates standing for the position. */
  lemma {:induction false} CandidatesOfSpec(cs: seq<Candidate>, positionId: Id)
    ensures forall c :: c in CandidatesOf(cs, positionId) <==> c in cs && c.positionId == positionId
  {
    if cs != [] {
      CandidatesOfSpec(cs[1..], positionId);
      assert cs == [cs[0]] + cs[1..];
    }
  }

  function IdsOf(cs: seq<Candidate>): (r: seq<Id>)
    ensures |r| == |cs|
  {
    if cs == [] then [] else [cs[0].id] + IdsOf(cs[1..])
  }

  /** IdsOf lists the ids of the candidates, position by position. */
  lemma {:induction false} IdsOfSpec(cs: seq<Candidate>)
    ensures forall k :: 0 <= k < |cs| ==> IdsOf(cs)[k] == cs[k].id
  {
    if cs != [] {
      IdsOfSpec(cs[1..]);
    }
  }

  // ----- vote queries --------------------------------------------------------

  /** The votes of one voter, in store order. */
  function VotesOf(votes: seq<Vote>, voterId: Id): (r: seq<Vote>)
    ensures forall x :: x in r <==> x in votes && x.voterId == voterId
    ensures |r| <= |votes|
    decreases |votes|
  {
    if votes == [] then []
    else
      var last := votes[|votes| - 1];
      VotesOf(votes[..|votes| - 1], voterId) + (if last.voterId == voterId then [last] else [])
  }

  /** The votes of a vote list that are for one position. */
  function AtPosition(votes: seq<Vote>, positionId: Id): (r: seq<Vote>)
    ensures forall x :: x in r <==> x in votes && x.positionId == positionId
    ensures |r| <= |votes|
    decreases |votes|
  {
    if votes == [] then []
    else
      var last := votes[|votes| - 1];
      AtPosition(votes[..|votes| - 1], positionId) + (if last.positionId == positionId then [last] else [])
  }

  /** VotesOf keeps every row of the voter as often as the table holds it,
      so equal rows are counted one by one. */
  lemma {:induction false} VotesOfCounts(votes: seq<Vote>, voterId: Id)
    ensures forall x ::
      multiset(VotesOf(votes, voterId))[x] == if x.voterId == voterId then multiset(votes)[x] else 0
    decreases |votes|
  {
    if votes != [] {
      var front := votes[..|votes| - 1];
      VotesOfCounts(front, voterId);
      assert votes == front + [votes[|votes| - 1]];
    }
  }

  /** AtPosition keeps every row for the position as often as the list holds it. */
  lemma {:induction false} AtPositionCounts(votes: seq<Vote>, positionId: Id)
    ensures forall x ::
      multiset(AtPosition(votes, positionId))[x] == if x.positionId == positionId then multiset(votes)[x] else 0
    decreases |votes|
  {
    if votes != [] {
      var front := votes[..|votes| - 1];
      AtPositionCounts(front, positionId);
      assert votes == front + [votes[|votes| - 1]];
    }
  }

  /** How many votes one voter holds for one position. */
  function CountAt(votes: seq<Vote>, voterId: Id, positionId: Id): nat {
    |AtPosition(VotesOf(votes, voterId), positionId)|
  }

  /** The votes left after deleting every vote of one voter. */
  function WithoutVoter(votes: seq<Vote>, voterId: Id): (r: seq<Vote>)
    ensures forall x :: x in r <==> x in votes && x.voterId != voterId
    decreases |votes|
  {
    if votes == [] then []
    else
      var last := votes[|votes| - 1];
      WithoutVoter(votes[..|votes| - 1], voterId) + (if last.voterId != voterId then [last] else [])
  }

  lemma AppendAssoc(a: seq<Vote>, b: seq<Vote>, c: seq<Vote>)
    ensures (a + b) + c == a + (b + c)
  {
  }

  lemma {:induction false} VotesOfAppend(a: seq<Vote>, b: seq<Vote>, voterId: Id)
    ensures VotesOf(a + b, voterId) == VotesOf(a, voterId) + VotesOf(b, voterId)
    decreases |b|
  {
    if b != [] {
      var b' := b[..|b| - 1];
      assert (a + b)[..|a + b| - 1] == a + b';
      VotesOfAppend(a, b', voterId);
    } else {
      assert a + b == a;
    }
  }

  lemma {:induction false} AtPositionAppend(a: seq<Vote>, b: seq<Vote>, positionId: Id)
    ensures AtPosition(a + b, positionId) == AtPosition(a, positionId) + AtPosition(b, positionId)
    decreases |b|
  {
    if b != [] {
      var b' := b[..|b| - 1];
      assert (a + b)[..|a + b| - 1] == a + b';
      AtPositionAppend(a, b', positionId);
    } else {
      assert a + b == a;
    }
  }

  /** Deleting one voter's votes leaves every other voter's votes as they were
      and leaves that voter with none. */
  lemma {:induction false} WithoutVoterVotesOf(votes: seq<Vote>, voterId: Id, other: Id)
    ensures VotesOf(WithoutVoter(votes, voterId), voterId) == []
    ensures other != voterId ==> VotesOf(WithoutVoter(votes, voterId), other) == VotesOf(votes, other)
    decreases |votes|
  {
    if votes != [] {
      var rest := votes[..|votes| - 1];
      var last := votes[|votes| - 1];
      WithoutVoterVotesOf(rest, voterId, other);
      var tail := if last.voterId != voterId then [last] else [];
      assert WithoutVoter(votes, voterId) == WithoutVoter(rest, voterId) + tail;
      VotesOfAppend(WithoutVoter(rest, voterId), tail, voterId);
      VotesOfAppend(WithoutVoter(rest, voterId), tail, other);
      assert VotesOf(votes, other) == VotesOf(rest, other) + (if last.voterId == other then [last] else []);
    }
  }
}

=== FILE: selection.dfy ===
/** The selection validator shared by the preview and the submission: which
    form field a position's choices are read from, the cap check, the
    lenient resolution of candidate references, and the structured preview. */
module Selection {
  import opened Wrappers
  import opened Records
  import Ballot

  predicate IsMulti(p: Position) {
    p.maxVote > 1
  }

  /** The most choices one submission can record for a position. */
  function Cap(p: Position): nat {
    if IsMulti(p) then p.maxVote else 1
  }

  /** The form field a position's choices are read from. */
  function SelectionKey(p: Position, slugify: string -> string): string {
    if IsMulti(p) then slugify(p.name) + "[]" else slugify(p.name)
  }

  /** The references posted for position `p`: every value under slug + "[]"
      for a multi-select position; only the first value under slug for a
      single-select one. */
  function Selected(form: Form, p: Position, slugify: string -> string): (sel: seq<string>)
    ensures !IsMulti(p) ==> sel == if SelectionKey(p, slugify) in form && |form[SelectionKey(p, slugify)]| > 0
      then [form[SelectionKey(p, slugify)][0]] else []
    ensures IsMulti(p) ==> sel == if SelectionKey(p, slugify) in form then form[SelectionKey(p, slugify)] else []
  {
    var key := SelectionKey(p, slugify);
    if IsMulti(p) then (if key in form then form[key] else [])
    else if key in form && |form[key]| > 0 then [form[key][0]]
    else []
  }

  /** More choices than a multi-select position allows. */
  predicate OverCap(form: Form, p: Position, slugify: string -> string) {
    IsMulti(p) && |Selected(form, p, slugify)| > p.maxVote
  }

  lemma WithinCap(form: Form, p: Position, slugify: string -> string)
    requires !OverCap(form, p, slugify)
    ensures |Selected(form, p, slugify)| <= Cap(p)
  {
  }

  // ----- resolution ----------------------------------------------------------

  /** One accepted choice: a candidate under a position. */
  datatype Pick = Pick(candidateId: Id, positionId: Id)

  /** The choices the references in `refs` resolve to under position `p`,
      in order; a reference that finds no candidate of `p` is skipped. */
  function PicksFor(refs: seq<string>, p: Position, cs: seq<Candidate>): (r: seq<Pick>)
    ensures |r| <= |refs|
    decreases |refs|
  {
    if refs == [] then []
    else
      PicksFor(refs[..|refs| - 1], p, cs) +
        match FindCandidate(cs, refs[|refs| - 1], p.id)
        case Some(c) => [Pick(c.id, p.id)]
        case None => []
  }

  /** Every choice resolved under `p` is recorded under `p`. */
  lemma {:induction false} PicksForPosition(refs: seq<string>, p: Position, cs: seq<Candidate>)
    ensures forall k :: 0 <= k < |PicksFor(refs, p, cs)| ==> PicksFor(refs, p, cs)[k].positionId == p.id
    decreases |refs|
  {
    if refs != [] {
      var front := refs[..|refs| - 1];
      PicksForPosition(front, p, cs);
      var r := PicksFor(refs, p, cs);
      forall k | 0 <= k < |r|
        ensures r[k].positionId == p.id
      {
        if k < |PicksFor(front, p, cs)| {
          assert r[k] == PicksFor(front, p, cs)[k];
        }
      }
    }
  }

  /** Every choice resolved under `p` names a candidate standing for `p`. */
  lemma {:induction false} PicksForCandidates(refs: seq<string>, p: Position, cs: seq<Candidate>)
    ensures forall k :: 0 <= k < |PicksFor(refs, p, cs)| ==>
      exists c :: c in cs && c.id == PicksFor(refs, p, cs)[k].candidateId && c.positionId == p.id
    decreases |refs|
  {
    if refs != [] {
      var front := PicksFor(refs[..|refs| - 1], p, cs);
      var r := PicksFor(refs, p, cs);
      var found := FindCandidate(cs, refs[|refs| - 1], p.id);
      PicksForCandidates(refs[..|refs| - 1], p, cs);
      FindCandidateSound(cs, refs[|refs| - 1], p.id);
      assert r == front + if found.Some? then [Pick(found.value.id, p.id)] else [];
      forall k | 0 <= k < |r|
        ensures exists c :: c in cs && c.id == r[k].candidateId && c.positionId == p.id
      {
        if k < |front| {
          assert r[k] == front[k];
          var c :| c in cs && c.id == front[k].candidateId && c.positionId == p.id;
        } else {
          assert r[k] == Pick(found.value.id, p.id);
          assert found.value in cs;
        }
      }
    } else {
      assert PicksFor(refs, p, cs) == [];
    }
  }

  /** Every reference that finds a candidate of `p` is recorded. */
  lemma {:induction false} PicksForComplete(refs: seq<string>, p: Position, cs: seq<Candidate>)
    ensures forall j :: 0 <= j < |refs| && FindCandidate(cs, refs[j], p.id).Some? ==>
      Pick(FindCandidate(cs, refs[j], p.id).value.id, p.id) in PicksFor(refs, p, cs)
    decreases |refs|
  {
    if refs != [] {
      var front := refs[..|refs| - 1];
      PicksForComplete(front, p, cs);
      forall j | 0 <= j < |refs| && FindCandidate(cs, refs[j], p.id).Some?
        ensures Pick(FindCandidate(cs, refs[j], p.id).value.id, p.id) in PicksFor(refs, p, cs)
      {
        if j < |front| {
          assert refs[j] == front[j];
        }
      }
    }
  }

  /** One more reference resolved. */
  lemma PicksForStep(refs: seq<string>, j: nat, p: Position, cs: seq<Candidate>)
    requires j < |refs|
    ensures PicksFor(refs[..j + 1], p, cs) == PicksFor(refs[..j], p, cs) +
      match FindCandidate(cs, refs[j], p.id)
      case Some(c) => [Pick(c.id, p.id)]
      case None => []
  {
    assert refs[..j + 1][..j] == refs[..j];
  }

  datatype Resolution = Resolved(picks: seq<Pick>) | Refused(picks: seq<Pick>, position: Position)

  /** Pick `x` names a candidate standing for one of the positions `ps`,
      and is recorded under that position. */
  ghost predicate Legitimate(x: Pick, ps: seq<Position>, cs: seq<Candidate>) {
    exists j :: 0 <= j < |ps| && ps[j].id == x.positionId &&
      exists c :: c in cs && c.id == x.candidateId && c.positionId == ps[j].id
  }

  /** The submission loop over positions in store order: the choices it
      records, or the first position with too many choices together with
      the choices recorded before reaching it. */
  function ResolveAll(ps: seq<Position>, cs: seq<Candidate>, form: Form, slugify: string -> string): (r: Resolution)
    ensures r.Refused? ==> IsMulti(r.position)
    decreases |ps|
  {
    if ps == [] then Resolved([])
    else
      var p := ps[|ps| - 1];
      var before := ResolveAll(ps[..|ps| - 1], cs, form, slugify);
      if before.Refused? then before
      else if OverCap(form, p, slugify) then Refused(before.picks, p)
      else Resolved(before.picks + PicksFor(Selected(form, p, slugify), p, cs))
  }

  /** A refusal names one of the positions, and that position has more
      choices than its max_vote. */
  lemma {:induction false} RefusalIsOverCap(ps: seq<Position>, cs: seq<Candidate>, form: Form,
                                            slugify: string -> string)
    ensures ResolveAll(ps, cs, form, slugify).Refused? ==>
      ResolveAll(ps, cs, form, slugify).position in ps &&
      OverCap(form, ResolveAll(ps, cs, form, slugify).position, slugify)
    decreases |ps|
  {
    if ps != [] {
      var front := ps[..|ps| - 1];
      RefusalIsOverCap(front, cs, form, slugify);
      var before := ResolveAll(front, cs, form, slugify);
      if before.Refused? {
        var j :| 0 <= j < |front| && front[j] == before.position;
        assert ps[j] == front[j];
      }
    }
  }

  /** Every recorded choice names a candidate standing for one of the
      positions, under that position: a reference to a candidate of
      another position is never recorded. */
  lemma {:induction false} ResolveLegitimate(ps: seq<Position>, cs: seq<Candidate>, form: Form,
                                             slugify: string -> string)
    ensures forall k :: 0 <= k < |ResolveAll(ps, cs, form, slugify).picks| ==>
      Legitimate(ResolveAll(ps, cs, form, slugify).picks[k], ps, cs)
    decreases |ps|
  {
    if ps != [] {
      var front := ps[..|ps| - 1];
      var p := ps[|ps| - 1];
      var before := ResolveAll(front, cs, form, slugify);
      var picks := ResolveAll(ps, cs, form, slugify).picks;
      ResolveLegitimate(front, cs, form, slugify);
      forall k | 0 <= k < |picks|
        ensures Legitimate(picks[k], ps, cs)
      {
        if k < |before.picks| {
          var j :| 0 <= j < |front| && front[j].id == before.picks[k].positionId &&
            exists c :: c in cs && c.id == before.picks[k].candidateId && c.positionId == front[j].id;
          assert ps[j] == front[j];
        } else {
          var chunk := PicksFor(Selected(form, p, slugify), p, cs);
          PicksForCandidates(Selected(form, p, slugify), p, cs);
          PicksForPosition(Selected(form, p, slugify), p, cs);
          assert picks == before.picks + chunk;
          assert picks[k] == chunk[k - |before.picks|];
          assert ps[|ps| - 1].id == picks[k].positionId;
        }
      }
    }
  }

  /** One more position visited by a loop that has not stopped yet, when
      that position is within its cap. */
  lemma {:induction false} ResolveStep(ps: seq<Position>, cs: seq<Candidate>, form: Form, slugify: string -> string, i: nat,
                    picks: seq<Pick>, refs: seq<string>)
    requires i < |ps| && ResolveAll(ps[..i], cs, form, slugify) == Resolved(picks)
    requires refs == Selected(form, ps[i], slugify) && !OverCap(form, ps[i], slugify)
    ensures ResolveAll(ps[..i + 1], cs, form, slugify) == Resolved(picks + PicksFor(refs, ps[i], cs))
  {
    assert ps[..i + 1][..i] == ps[..i];
  }

  /** The loop stops at a position over its cap, keeping the choices before it. */
  lemma {:induction false} RefusalAt(ps: seq<Position>, cs: seq<Candidate>, form: Form, slugify: string -> string, i: nat,
                                     picks: seq<Pick>)
    requires i < |ps| && ResolveAll(ps[..i], cs, form, slugify) == Resolved(picks) && OverCap(form, ps[i], slugify)
    ensures ResolveAll(ps[..i + 1], cs, form, slugify) == Refused(picks, ps[i])
  {
    var q := ps[..i + 1];
    assert q[..|q| - 1] == ps[..i] && q[|q| - 1] == ps[i];
  }

  /** Once the loop has stopped at some position, later positions change nothing. */
  lemma {:induction false} RefusalSticks(ps: seq<Position>, cs: seq<Candidate>, form: Form,
                                         slugify: string -> string, n: nat)
    requires n <= |ps| && ResolveAll(ps[..n], cs, form, slugify).Refused?
    ensures ResolveAll(ps, cs, form, slugify) == ResolveAll(ps[..n], cs, form, slugify)
    decreases |ps| - n
  {
    if n < |ps| {
      RefusedStep(ps, cs, form, slugify, n);
      RefusalSticks(ps, cs, form, slugify, n + 1);
    } else {
      assert ps[..n] == ps;
    }
  }

  lemma {:induction false} RefusedStep(ps: seq<Position>, cs: seq<Candidate>, form: Form, slugify: string -> string, n: nat)
    requires n < |ps| && ResolveAll(ps[..n], cs, form, slugify).Refused?
    ensures ResolveAll(ps[..n + 1], cs, form, slugify) == ResolveAll(ps[..n], cs, form, slugify)
  {
    assert ps[..n + 1][..n] == ps[..n];
  }

  /** With no position over its cap the loop runs to the end. */
  lemma {:induction false} NoOverCapResolves(ps: seq<Position>, cs: seq<Candidate>, form: Form,
                                             slugify: string -> string)
    requires forall j :: 0 <= j < |ps| ==> !OverCap(form, ps[j], slugify)
    ensures ResolveAll(ps, cs, form, slugify).Resolved?
    decreases |ps|
  {
    if ps != [] {
      NoOverCapResolves(ps[..|ps| - 1], cs, form, slugify);
    }
  }

  /** The submission is refused exactly when some position has too many choices. */
  lemma ResolveRefusesIffOverCap(ps: seq<Position>, cs: seq<Candidate>, form: Form,
                                 slugify: string -> string)
    ensures ResolveAll(ps, cs, form, slugify).Resolved? <==>
      forall j :: 0 <= j < |ps| ==> !OverCap(form, ps[j], slugify)
  {
    if forall j :: 0 <= j < |ps| ==> !OverCap(form, ps[j], slugify) {
      NoOverCapResolves(ps, cs, form, slugify);
    }
    if ResolveAll(ps, cs, form, slugify).Resolved? {
      ResolvedHasNoOverCap(ps, cs, form, slugify);
    }
  }

  /** A loop that ran to the end met no position over its cap. */
  lemma {:induction false} ResolvedHasNoOverCap(ps: seq<Position>, cs: seq<Candidate>, form: Form,
                                                slugify: string -> string)
    requires ResolveAll(ps, cs, form, slugify).Resolved?
    ensures forall j :: 0 <= j < |ps| ==> !OverCap(form, ps[j], slugify)
    decreases |ps|
  {
    if ps != [] {
      var front := ps[..|ps| - 1];
      var before := ResolveAll(front, cs, form, slugify);
      assert before.Resolved? && !OverCap(form, ps[|ps| - 1], slugify);
      ResolvedHasNoOverCap(front, cs, form, slugify);
      forall j | 0 <= j < |ps| - 1
        ensures !OverCap(form, ps[j], slugify)
      {
        assert ps[j] == front[j];
      }
    }
  }

  /** A refusal happens at the first position with too many choices and
      keeps the choices recorded for the positions before it. */
  lemma ResolveStopsAtFirstOverCap(ps: seq<Position>, cs: seq<Candidate>, form: Form,
                                   slugify: string -> string, k: nat)
    requires k < |ps| && OverCap(form, ps[k], slugify)
    requires forall j :: 0 <= j < k ==> !OverCap(form, ps[j], slugify)
    ensures ResolveAll(ps[..k], cs, form, slugify).Resolved?
    ensures ResolveAll(ps, cs, form, slugify) == Refused(ResolveAll(ps[..k], cs, form, slugify).picks, ps[k])
  {
    PrefixResolves(ps, cs, form, slugify, k);
    var picks := ResolveAll(ps[..k], cs, form, slugify).picks;
    RefusalAt(ps, cs, form, slugify, k, picks);
    RefusalSticks(ps, cs, form, slugify, k + 1);
  }

  /** The loop runs through a prefix with no position over its cap. */
  lemma PrefixResolves(ps: seq<Position>, cs: seq<Candidate>, form: Form, slugify: string -> string, k: nat)
    requires k <= |ps|
    requires forall j :: 0 <= j < k ==> !OverCap(form, ps[j], slugify)
    ensures ResolveAll(ps[..k], cs, form, slugify).Resolved?
  {
    var front := ps[..k];
    forall j | 0 <= j < |front|
      ensures !OverCap(form, front[j], slugify)
    {
      assert front[j] == ps[j];
    }
    NoOverCapResolves(front, cs, form, slugify);
  }

  /** The loop only ever adds choices: the choices recorded over the first
      `n` positions begin the choices recorded over all of them. */
  lemma {:induction false} ResolvePicksGrow(ps: seq<Position>, cs: seq<Candidate>, form: Form,
                                            slugify: string -> string, n: nat)
    requires n <= |ps|
    ensures ResolveAll(ps[..n], cs, form, slugify).picks <= ResolveAll(ps, cs, form, slugify).picks
    decreases |ps|
  {
    if n == |ps| {
      assert ps[..n] == ps;
    } else {
      var front := ps[..|ps| - 1];
      assert ps[..n] == front[..n];
      ResolvePicksGrow(front, cs, form, slugify, n);
      var a := ResolveAll(ps[..n], cs, form, slugify).picks;
      var b := ResolveAll(front, cs, form, slugify).picks;
      var c := ResolveAll(ps, cs, form, slugify).picks;
      assert b <= c;
      assert a == b[..|a|] && b == c[..|b|];
      assert c[..|a|] == b[..|a|];
    }
  }

  /** Every reference posted for a position the loop got past, and naming
      a candidate of that position, is recorded as a choice: references
      are dropped only when they resolve to nothing. */
  lemma ResolveComplete(ps: seq<Position>, cs: seq<Candidate>, form: Form, slugify: string -> string,
                        j: nat, ref: string)
    requires j < |ps| && ResolveAll(ps[..j + 1], cs, form, slugify).Resolved?
    requires ref in Selected(form, ps[j], slugify) && FindCandidate(cs, ref, ps[j].id).Some?
    ensures Pick(FindCandidate(cs, ref, ps[j].id).value.id, ps[j].id) in ResolveAll(ps, cs, form, slugify).picks
  {
    var p := ps[j];
    var sel := Selected(form, p, slugify);
    var x := Pick(FindCandidate(cs, ref, p.id).value.id, p.id);
    var q := ps[..j + 1];
    assert q[..|q| - 1] == ps[..j] && q[|q| - 1] == p;
    var before := ResolveAll(ps[..j], cs, form, slugify);
    assert before.Resolved? && !OverCap(form, p, slugify);
    assert ResolveAll(q, cs, form, slugify).picks == before.picks + PicksFor(sel, p, cs);
    var k :| 0 <= k < |sel| && sel[k] == ref;
    PicksForComplete(sel, p, cs);
    assert x in ResolveAll(q, cs, form, slugify).picks;
    ResolvePicksGrow(ps, cs, form, slugify, j + 1);
  }

  // ----- caps per position -------------------------------------------------------

  /** How many picks are recorded under one position. */
  function PickCount(picks: seq<Pick>, positionId: Id): nat
    decreases |picks|
  {
    if picks == [] then 0
    else PickCount(picks[..|picks| - 1], positionId) + (if picks[|picks| - 1].positionId == positionId then 1 else 0)
  }

  lemma {:induction false} PickCountAppend(a: seq<Pick>, b: seq<Pick>, positionId: Id)
    ensures PickCount(a + b, positionId) == PickCount(a, positionId) + PickCount(b, positionId)
    decreases |b|
  {
    if b == [] {
      assert a + b == a;
    } else {
      assert (a + b)[..|a + b| - 1] == a + b[..|b| - 1];
      PickCountAppend(a, b[..|b| - 1], positionId);
    }
  }

  lemma {:induction false} PickCountNone(picks: seq<Pick>, positionId: Id)
    requires forall k :: 0 <= k < |picks| ==> picks[k].positionId != positionId
    ensures PickCount(picks, positionId) == 0
    decreases |picks|
  {
    if picks != [] {
      PickCountNone(picks[..|picks| - 1], positionId);
    }
  }

  lemma {:induction false} PickCountAll(picks: seq<Pick>, positionId: Id)
    requires forall k :: 0 <= k < |picks| ==> picks[k].positionId == positionId
    ensures PickCount(picks, positionId) == |picks|
    decreases |picks|
  {
    if picks != [] {
      PickCountAll(picks[..|picks| - 1], positionId);
    }
  }

  /** With unique position ids, the choices recorded for the positions
      `front` are none of them under a further position `p`. */
  lemma EarlierPicksElsewhere(front: seq<Position>, p: Position, cs: seq<Candidate>, form: Form,
                              slugify: string -> string)
    requires UniquePositionIds(front + [p])
    ensures forall m :: 0 <= m < |ResolveAll(front, cs, form, slugify).picks| ==>
      ResolveAll(front, cs, form, slugify).picks[m].positionId != p.id
  {
    var before := ResolveAll(front, cs, form, slugify).picks;
    ResolveLegitimate(front, cs, form, slugify);
    forall m | 0 <= m < |before|
      ensures before[m].positionId != p.id
    {
      var j :| 0 <= j < |front| && front[j].id == before[m].positionId &&
        exists c :: c in cs && c.id == before[m].candidateId && c.positionId == front[j].id;
      assert (front + [p])[j] == front[j] && (front + [p])[|front|] == p;
    }
  }

  /** One submission records at most max_vote choices for a multi-select
      position and at most one for a single-select position, whether it
      runs to the end or stops at a position with too many choices. */
  lemma {:induction false} ResolveWithinCaps(ps: seq<Position>, cs: seq<Candidate>, form: Form,
                                             slugify: string -> string)
    requires UniquePositionIds(ps)
    ensures forall k :: 0 <= k < |ps| ==>
      PickCount(ResolveAll(ps, cs, form, slugify).picks, ps[k].id) <= Cap(ps[k])
    decreases |ps|
  {
    if ps != [] {
      var front := ps[..|ps| - 1];
      var p := ps[|ps| - 1];
      var before := ResolveAll(front, cs, form, slugify).picks;
      var picks := ResolveAll(ps, cs, form, slugify).picks;
      ResolveWithinCaps(front, cs, form, slugify);
      assert front + [p] == ps;
      EarlierPicksElsewhere(front, p, cs, form, slugify);
      PickCountNone(before, p.id);
      var chunk := picks[|before|..];
      assert picks == before + chunk;
      assert chunk == [] || chunk == PicksFor(Selected(form, p, slugify), p, cs);
      PicksForPosition(Selected(form, p, slugify), p, cs);
      assert forall m :: 0 <= m < |chunk| ==> chunk[m].positionId == p.id;
      assert chunk != [] ==> !OverCap(form, p, slugify);
      forall k | 0 <= k < |ps|
        ensures PickCount(picks, ps[k].id) <= Cap(ps[k])
      {
        PickCountAppend(before, chunk, ps[k].id);
        if k < |ps| - 1 {
          assert ps[k] == front[k];
          PickCountNone(chunk, ps[k].id);
        } else {
          PickCountAll(chunk, p.id);
          if chunk != [] {
            WithinCap(form, p, slugify);
          }
        }
      }
    }
  }

  // ----- preview -------------------------------------------------------------------

  /** The names listed under one position in the preview. */
  datatype PreviewGroup = PreviewGroup(title: string, names: seq<string>)

  /** The preview: its groups, and the position that stopped it, if any. */
  datatype Preview = Preview(groups: seq<PreviewGroup>, refusedAt: Option<Position>)

  /** The full names the references in `refs` resolve to under position `p`. */
  function NamesFor(refs: seq<string>, p: Position, cs: seq<Candidate>): (r: seq<string>)
    ensures |r| == |PicksFor(refs, p, cs)|
    decreases |refs|
  {
    if refs == [] then []
    else
      NamesFor(refs[..|refs| - 1], p, cs) +
        match FindCandidate(cs, refs[|refs| - 1], p.id)
        case Some(c) => [c.fullname]
        case None => []
  }

  /** `name` is the full name of a candidate the choice `x` names, standing
      for the choice's position. */
  ghost predicate NamedBy(cs: seq<Candidate>, x: Pick, name: string) {
    exists c :: c in cs && c.id == x.candidateId && c.positionId == x.positionId && c.fullname == name
  }

  /** `names` lists, one for one, the full names of the candidates the
      choices `picks` name. */
  ghost predicate NamesMatch(cs: seq<Candidate>, picks: seq<Pick>, names: seq<string>) {
    |picks| == |names| && forall k :: 0 <= k < |picks| ==> NamedBy(cs, picks[k], names[k])
  }

  lemma NamesMatchAppend(cs: seq<Candidate>, a: seq<Pick>, x: seq<string>, b: seq<Pick>, y: seq<string>)
    requires NamesMatch(cs, a, x) && NamesMatch(cs, b, y)
    ensures NamesMatch(cs, a + b, x + y)
  {
    var ab, xy := a + b, x + y;
    forall k | 0 <= k < |ab|
      ensures NamedBy(cs, ab[k], xy[k])
    {
      if k < |a| {
        assert ab[k] == a[k] && xy[k] == x[k];
      } else {
        assert ab[k] == b[k - |a|] && xy[k] == y[k - |a|];
      }
    }
  }

  /** The preview names, in order, the candidates the submission records. */
  lemma {:induction false} NamesForPicks(refs: seq<string>, p: Position, cs: seq<Candidate>)
    ensures NamesMatch(cs, PicksFor(refs, p, cs), NamesFor(refs, p, cs))
    decreases |refs|
  {
    if refs != [] {
      var front := refs[..|refs| - 1];
      NamesForPicks(front, p, cs);
      var found := FindCandidate(cs, refs[|refs| - 1], p.id);
      FindCandidateSound(cs, refs[|refs| - 1], p.id);
      if found.Some? {
        var c := found.value;
        assert NamedBy(cs, Pick(c.id, p.id), c.fullname);
        assert NamesMatch(cs, [Pick(c.id, p.id)], [c.fullname]);
        NamesMatchAppend(cs, PicksFor(front, p, cs), NamesFor(front, p, cs), [Pick(c.id, p.id)], [c.fullname]);
      } else {
        assert PicksFor(refs, p, cs) == PicksFor(front, p, cs);
        assert NamesFor(refs, p, cs) == NamesFor(front, p, cs);
      }
    }
  }

  /** One more reference looked up for the preview. */
  lemma NamesForStep(refs: seq<string>, j: nat, p: Position, cs: seq<Candidate>)
    requires j < |refs|
    ensures NamesFor(refs[..j + 1], p, cs) == NamesFor(refs[..j], p, cs) +
      match FindCandidate(cs, refs[j], p.id)
      case Some(c) => [c.fullname]
      case None => []
  {
    assert refs[..j + 1][..j] == refs[..j];
  }

  /** The preview of a single reference. */
  lemma NamesForOne(ref: string, p: Position, cs: seq<Candidate>)
    ensures NamesFor([ref], p, cs) ==
      match FindCandidate(cs, ref, p.id)
      case Some(c) => [c.fullname]
      case None => []
  {
    assert [ref][..0] == [];
  }

  /** The preview loop over positions in store order. A multi-select
      position with any references gets a group (even if none resolves); a
      single-select one gets a group only when its reference resolves. The
      loop stops at the first position with too many choices and keeps the
      groups built before it. */
  function PreviewOf(ps: seq<Position>, cs: seq<Candidate>, form: Form, slugify: string -> string): (r: Preview)
    ensures r.refusedAt.Some? ==> IsMulti(r.refusedAt.value)
    decreases |ps|
  {
    if ps == [] then Preview([], None)
    else
      var before := PreviewOf(ps[..|ps| - 1], cs, form, slugify);
      var p := ps[|ps| - 1];
      var sel := Selected(form, p, slugify);
      if before.refusedAt.Some? then before
      else if OverCap(form, p, slugify) then Preview(before.groups, Some(p))
      else if IsMulti(p) then
        if |sel| > 0 then Preview(before.groups + [PreviewGroup(p.name, NamesFor(sel, p, cs))], None)
        else before
      else if |NamesFor(sel, p, cs)| > 0 then Preview(before.groups + [PreviewGroup(p.name, NamesFor(sel, p, cs))], None)
      else before
  }

  /** One more position visited by a preview that has not stopped yet. */
  lemma {:induction false} PreviewStep(ps: seq<Position>, cs: seq<Candidate>, form: Form, slugify: string -> string, i: nat)
    requires i < |ps| && PreviewOf(ps[..i], cs, form, slugify).refusedAt.None?
    ensures var before := PreviewOf(ps[..i], cs, form, slugify).groups;
      var sel := Selected(form, ps[i], slugify);
      var group := PreviewGroup(ps[i].name, NamesFor(sel, ps[i], cs));
      PreviewOf(ps[..i + 1], cs, form, slugify) ==
        if OverCap(form, ps[i], slugify) then Preview(before, Some(ps[i]))
        else if (IsMulti(ps[i]) && |sel| > 0) || (!IsMulti(ps[i]) && |NamesFor(sel, ps[i], cs)| > 0)
        then Preview(before + [group], None)
        else Preview(before, None)
  {
    assert ps[..i + 1][..i] == ps[..i];
  }

  /** Once the preview has stopped at some position, later positions change nothing. */
  lemma {:induction false} PreviewRefusalSticks(ps: seq<Position>, cs: seq<Candidate>, form: Form,
                                                slugify: string -> string, n: nat)
    requires n <= |ps| && PreviewOf(ps[..n], cs, form, slugify).refusedAt.Some?
    ensures PreviewOf(ps, cs, form, slugify) == PreviewOf(ps[..n], cs, form, slugify)
    decreases |ps| - n
  {
    if n < |ps| {
      assert ps[..n + 1][..n] == ps[..n];
      PreviewRefusalSticks(ps, cs, form, slugify, n + 1);
    } else {
      assert ps[..n] == ps;
    }
  }

  /** The names the groups list, group after group. */
  function Listed(groups: seq<PreviewGroup>): seq<string>
    decreases |groups|
  {
    if groups == [] then [] else Listed(groups[..|groups| - 1]) + groups[|groups| - 1].names
  }

  /** The preview refuses a form exactly when the submission would, at the
      same position, and it lists one name for every choice the submission
      would record, naming the candidate that choice records. */
  lemma {:induction false} PreviewAgreesWithSubmission(ps: seq<Position>, cs: seq<Candidate>, form: Form,
                                                       slugify: string -> string)
    ensures var pv := PreviewOf(ps, cs, form, slugify);
      var res := ResolveAll(ps, cs, form, slugify);
      pv.refusedAt == (if res.Refused? then Some(res.position) else None) &&
      NamesMatch(cs, res.picks, Listed(pv.groups))
    decreases |ps|
  {
    if ps != [] {
      var front := ps[..|ps| - 1];
      var p := ps[|ps| - 1];
      PreviewAgreesWithSubmission(front, cs, form, slugify);
      var before := PreviewOf(front, cs, form, slugify);
      var sel := Selected(form, p, slugify);
      if before.refusedAt.None? && !OverCap(form, p, slugify) {
        var g := PreviewGroup(p.name, NamesFor(sel, p, cs));
        assert (before.groups + [g])[..|before.groups|] == before.groups;
        NamesForPicks(sel, p, cs);
        NamesMatchAppend(cs, ResolveAll(front, cs, form, slugify).picks, Listed(before.groups),
                         PicksFor(sel, p, cs), NamesFor(sel, p, cs));
        assert Listed(before.groups) + [] == Listed(before.groups);
        assert ResolveAll(front, cs, form, slugify).picks + [] == ResolveAll(front, cs, form, slugify).picks;
      }
    }
  }

  // ----- ballot and submission agree -----------------------------------------------

  /** Each rendered entry posts under the field the submission reads for its
      position, with the matching selection semantics, and every candidate
      it offers, posted as the decimal text of its id, is recorded as a
      choice of that candidate under that position. */
  lemma BallotMatchesSubmission(ps: seq<Position>, cs: seq<Candidate>, displayControls: bool,
                                slugify: string -> string, k: nat)
    requires UniqueCandidateIds(cs) && k < |ps|
    ensures var e := Ballot.BallotOf(ps, cs, displayControls, slugify)[k];
      var p := ps[Ballot.OrderByPriority(ps)[k]];
      e.inputName == SelectionKey(p, slugify) &&
      (e.kind == Ballot.Checkbox <==> IsMulti(p)) &&
      forall x :: x in e.candidateIds ==> PicksFor([Decimal(x)], p, cs) == [Pick(x, p.id)]
  {
    Ballot.BallotEntries(ps, cs, displayControls, slugify);
    var e := Ballot.BallotOf(ps, cs, displayControls, slugify)[k];
    var p := ps[Ballot.OrderByPriority(ps)[k]];
    assert Ballot.Shows(e, p, cs, |ps|, displayControls, slugify);
    forall x | x in e.candidateIds
      ensures PicksFor([Decimal(x)], p, cs) == [Pick(x, p.id)]
    {
      var c :| c in cs && c.id == x && c.positionId == p.id;
      var j :| 0 <= j < |cs| && cs[j] == c;
      FindCandidateByDecimal(cs, j);
      assert [Decimal(x)][..0] == [];
    }
  }
}

=== FILE: submission.dfy ===
/** Ballot submission as a transition of the voter and vote tables: the
    choices a submission records, the final count check that either marks
    the voter as having voted or deletes all of the voter's votes, and the
    table invariant every transition keeps. */
module Submission {
  import opened Wrappers
  import opened Records
  import opened Selection

  /** What a submission request comes to. */
  datatype Outcome =
    | NotPost
    | AlreadyVoted
    | NothingSelected
    | TooManySelections(position: Position)
    | Recorded
    | RolledBack

  /** The tables a submission writes. */
  datatype Tables = Tables(voters: seq<Voter>, votes: seq<Vote>)

  /** The posted form without the CSRF token and the submit button. */
  function Cleaned(form: Form): (f: Form)
    ensures forall key :: key in f <==> key in form && key != "csrfmiddlewaretoken" && key != "submit_vote"
    ensures forall key :: key in f ==> f[key] == form[key]
  {
    form - {"csrfmiddlewaretoken", "submit_vote"}
  }

  /** The vote rows created for `picks`, in order, all for one voter. */
  function ToVotes(voterId: Id, picks: seq<Pick>): (r: seq<Vote>)
    ensures |r| == |picks|
    decreases |picks|
  {
    if picks == [] then []
    else
      var last := picks[|picks| - 1];
      ToVotes(voterId, picks[..|picks| - 1]) + [Vote(voterId, last.candidateId, last.positionId)]
  }

  /** Row k is the vote of the voter for the k-th pick. */
  lemma {:induction false} ToVotesSpec(voterId: Id, picks: seq<Pick>)
    ensures forall k :: 0 <= k < |picks| ==>
      ToVotes(voterId, picks)[k] == Vote(voterId, picks[k].candidateId, picks[k].positionId)
    decreases |picks|
  {
    if picks != [] {
      ToVotesSpec(voterId, picks[..|picks| - 1]);
    }
  }

  lemma ToVotesAppend(voterId: Id, a: seq<Pick>, b: seq<Pick>)
    ensures ToVotes(voterId, a + b) == ToVotes(voterId, a) + ToVotes(voterId, b)
  {
    ToVotesSpec(voterId, a + b);
    ToVotesSpec(voterId, a);
    ToVotesSpec(voterId, b);
  }

  /** The rows created for one voter are all that voter's, and nobody else's. */
  lemma {:induction false} ToVotesOwner(voterId: Id, picks: seq<Pick>, other: Id)
    ensures VotesOf(ToVotes(voterId, picks), voterId) == ToVotes(voterId, picks)
    ensures other != voterId ==> VotesOf(ToVotes(voterId, picks), other) == []
    decreases |picks|
  {
    if picks != [] {
      var front := picks[..|picks| - 1];
      ToVotesOwner(voterId, front, other);
      assert ToVotes(voterId, picks)[..|picks| - 1] == ToVotes(voterId, front);
    }
  }

  /** The rows created for `picks` hold as many votes for a position as `picks` does. */
  lemma {:induction false} ToVotesAtPosition(voterId: Id, picks: seq<Pick>, positionId: Id)
    ensures |AtPosition(ToVotes(voterId, picks), positionId)| == PickCount(picks, positionId)
    decreases |picks|
  {
    if picks != [] {
      var front := picks[..|picks| - 1];
      ToVotesAtPosition(voterId, front, positionId);
      assert ToVotes(voterId, picks)[..|picks| - 1] == ToVotes(voterId, front);
    }
  }

  /** The votes created for one more reference. */
  lemma ToVotesStep(voterId: Id, refs: seq<string>, j: nat, p: Position, cs: seq<Candidate>)
    requires j < |refs|
    ensures ToVotes(voterId, PicksFor(refs[..j + 1], p, cs)) == ToVotes(voterId, PicksFor(refs[..j], p, cs)) +
      match FindCandidate(cs, refs[j], p.id)
      case Some(c) => [Vote(voterId, c.id, p.id)]
      case None => []
  {
    PicksForStep(refs, j, p, cs);
    var done := PicksFor(refs[..j], p, cs);
    match FindCandidate(cs, refs[j], p.id)
    case Some(c) =>
      ToVotesAppend(voterId, done, [Pick(c.id, p.id)]);
      assert [Pick(c.id, p.id)][..0] == [];
    case None =>
      assert done + [] == done;
  }

  /** submit_ballot for the voter at index `v` of the voter table. A
      submission stopped at a position with too many choices keeps the
      votes it has already created; a completed one commits only if the
      voter's vote count equals the number of votes it created, and
      otherwise deletes every vote of the voter. */
  function Submit(t: Tables, ps: seq<Position>, cs: seq<Candidate>, v: nat, isPost: bool, form: Form,
                  slugify: string -> string): (r: (Tables, Outcome))
    requires v < |t.voters|
    ensures |r.0.voters| == |t.voters|
    ensures r.0.voters != t.voters <==> r.1 == Recorded
  {
    var w := t.voters[v];
    if !isPost then (t, NotPost)
    else if w.voted then (t, AlreadyVoted)
    else if Cleaned(form) == map[] then (t, NothingSelected)
    else
      match ResolveAll(ps, cs, Cleaned(form), slugify)
      case Refused(picks, p) => (Tables(t.voters, t.votes + ToVotes(w.id, picks)), TooManySelections(p))
      case Resolved(picks) =>
        var all := t.votes + ToVotes(w.id, picks);
        if |VotesOf(all, w.id)| != |picks| then (Tables(t.voters, WithoutVoter(all, w.id)), RolledBack)
        else (Tables(t.voters[v := w.(voted := true)], all), Recorded)
  }

  /** The choices a submission would record. */
  function Choices(ps: seq<Position>, cs: seq<Candidate>, form: Form, slugify: string -> string): seq<Pick> {
    ResolveAll(ps, cs, Cleaned(form), slugify).picks
  }

  /** What each outcome does to the voter table: the guards leave both
      tables alone, and only a recorded submission marks the voter. */
  lemma SubmitGuards(t: Tables, ps: seq<Position>, cs: seq<Candidate>, v: nat, isPost: bool, form: Form,
                     slugify: string -> string)
    requires v < |t.voters|
    ensures Submit(t, ps, cs, v, isPost, form, slugify).1 == NotPost <==> !isPost
    ensures Submit(t, ps, cs, v, isPost, form, slugify).1 == AlreadyVoted <==> isPost && t.voters[v].voted
    ensures isPost && !t.voters[v].voted && Cleaned(form) == map[] ==>
      Submit(t, ps, cs, v, isPost, form, slugify) == (t, NothingSelected)
    ensures isPost && !t.voters[v].voted && Cleaned(form) != map[] ==>
      (Submit(t, ps, cs, v, isPost, form, slugify).1.TooManySelections? <==>
       ResolveAll(ps, cs, Cleaned(form), slugify).Refused?)
    ensures Submit(t, ps, cs, v, isPost, form, slugify).1 in {NotPost, AlreadyVoted, NothingSelected} ==>
      Submit(t, ps, cs, v, isPost, form, slugify).0 == t
    ensures Submit(t, ps, cs, v, isPost, form, slugify).1 != Recorded ==>
      Submit(t, ps, cs, v, isPost, form, slugify).0.voters == t.voters
    ensures Submit(t, ps, cs, v, isPost, form, slugify).1 == Recorded ==>
      Submit(t, ps, cs, v, isPost, form, slugify).0.voters == t.voters[v := t.voters[v].(voted := true)]
  {
  }

  /** What each outcome does to the submitting voter's votes: a recorded
      submission leaves exactly the chosen votes, a rollback leaves none,
      and a refused one appends the votes created before the refusal. */
  lemma SubmitOwnVotes(t: Tables, ps: seq<Position>, cs: seq<Candidate>, v: nat, isPost: bool, form: Form,
                       slugify: string -> string)
    requires v < |t.voters|
    ensures Submit(t, ps, cs, v, isPost, form, slugify).1 == Recorded ==>
      VotesOf(Submit(t, ps, cs, v, isPost, form, slugify).0.votes, t.voters[v].id)
        == ToVotes(t.voters[v].id, Choices(ps, cs, form, slugify))
    ensures Submit(t, ps, cs, v, isPost, form, slugify).1 == RolledBack ==>
      VotesOf(Submit(t, ps, cs, v, isPost, form, slugify).0.votes, t.voters[v].id) == []
    ensures Submit(t, ps, cs, v, isPost, form, slugify).1.TooManySelections? ==>
      VotesOf(Submit(t, ps, cs, v, isPost, form, slugify).0.votes, t.voters[v].id)
        == VotesOf(t.votes, t.voters[v].id) + ToVotes(t.voters[v].id, Choices(ps, cs, form, slugify))
  {
    var w := t.voters[v];
    var r := Submit(t, ps, cs, v, isPost, form, slugify);
    if isPost && !w.voted && Cleaned(form) != map[] {
      var res := ResolveAll(ps, cs, Cleaned(form), slugify);
      var added := ToVotes(w.id, res.picks);
      var all := t.votes + added;
      VotesOfAppend(t.votes, added, w.id);
      ToVotesOwner(w.id, res.picks, w.id);
      if res.Refused? {
        assert r.0.votes == all;
      } else if |VotesOf(all, w.id)| != |res.picks| {
        assert r.0.votes == WithoutVoter(all, w.id);
        WithoutVoterVotesOf(all, w.id, w.id);
      } else {
        assert r == (Tables(t.voters[v := w.(voted := true)], all), Recorded);
        assert VotesOf(t.votes, w.id) == [];
      }
    }
  }

  /** Every other voter keeps exactly their votes, whatever the outcome. */
  lemma SubmitOtherVotes(t: Tables, ps: seq<Position>, cs: seq<Candidate>, v: nat, isPost: bool, form: Form,
                         slugify: string -> string, other: Id)
    requires v < |t.voters| && other != t.voters[v].id
    ensures VotesOf(Submit(t, ps, cs, v, isPost, form, slugify).0.votes, other) == VotesOf(t.votes, other)
  {
    var w := t.voters[v];
    var r := Submit(t, ps, cs, v, isPost, form, slugify);
    if isPost && !w.voted && Cleaned(form) != map[] {
      var res := ResolveAll(ps, cs, Cleaned(form), slugify);
      var added := ToVotes(w.id, res.picks);
      var all := t.votes + added;
      VotesOfAppend(t.votes, added, other);
      ToVotesOwner(w.id, res.picks, other);
      assert VotesOf(all, other) == VotesOf(t.votes, other);
      if res.Resolved? && |VotesOf(all, w.id)| != |res.picks| {
        assert r.0.votes == WithoutVoter(all, w.id);
        WithoutVoterVotesOf(all, w.id, other);
      } else {
        assert r.0.votes == all;
      }
    }
  }

  /** A submission that gets past position `j`, whether it is recorded or
      refused at a later position, leaves the voter holding a vote for every
      reference posted for `j` that names a candidate of `j`. */
  lemma SubmitRecordsEveryChoice(t: Tables, ps: seq<Position>, cs: seq<Candidate>, v: nat, isPost: bool,
                                 form: Form, slugify: string -> string, j: nat, ref: string)
    requires v < |t.voters| && j < |ps| && ResolveAll(ps[..j + 1], cs, Cleaned(form), slugify).Resolved?
    requires ref in Selected(Cleaned(form), ps[j], slugify) && FindCandidate(cs, ref, ps[j].id).Some?
    ensures var r := Submit(t, ps, cs, v, isPost, form, slugify);
      r.1 == Recorded || r.1.TooManySelections? ==>
        Vote(t.voters[v].id, FindCandidate(cs, ref, ps[j].id).value.id, ps[j].id) in VotesOf(r.0.votes, t.voters[v].id)
  {
    var id := t.voters[v].id;
    var picks := Choices(ps, cs, form, slugify);
    var x := Pick(FindCandidate(cs, ref, ps[j].id).value.id, ps[j].id);
    ResolveComplete(ps, cs, Cleaned(form), slugify, j, ref);
    var k :| 0 <= k < |picks| && picks[k] == x;
    ToVotesSpec(id, picks);
    assert ToVotes(id, picks)[k] == Vote(id, x.candidateId, x.positionId);
    SubmitOwnVotes(t, ps, cs, v, isPost, form, slugify);
  }

  /** A non-empty form whose choices resolve to nothing (only unrelated
      keys, or references naming no candidate) passes the emptiness guard,
      creates no votes and matches a count of zero: a voter holding no
      votes is marked as having voted with an empty ballot. */
  lemma EmptyBallotRecorded(t: Tables, ps: seq<Position>, cs: seq<Candidate>, v: nat, form: Form,
                            slugify: string -> string)
    requires v < |t.voters| && !t.voters[v].voted && VotesOf(t.votes, t.voters[v].id) == []
    requires Cleaned(form) != map[] && ResolveAll(ps, cs, Cleaned(form), slugify) == Resolved([])
    ensures Submit(t, ps, cs, v, true, form, slugify) ==
      (Tables(t.voters[v := t.voters[v].(voted := true)], t.votes), Recorded)
  {
    assert t.votes + ToVotes(t.voters[v].id, []) == t.votes;
  }

  /** A completed submission by a voter who has not voted commits exactly
      when the voter holds no votes beforehand: votes left by an earlier
      refused submission force a rollback. */
  lemma CommitIffNoLeftovers(t: Tables, ps: seq<Position>, cs: seq<Candidate>, v: nat, form: Form,
                             slugify: string -> string)
    requires v < |t.voters| && !t.voters[v].voted && Cleaned(form) != map[]
    requires ResolveAll(ps, cs, Cleaned(form), slugify).Resolved?
    ensures Submit(t, ps, cs, v, true, form, slugify).1 == Recorded <==> VotesOf(t.votes, t.voters[v].id) == []
    ensures Submit(t, ps, cs, v, true, form, slugify).1 != Recorded ==>
      Submit(t, ps, cs, v, true, form, slugify).1 == RolledBack
  {
    var w := t.voters[v];
    var picks := Choices(ps, cs, form, slugify);
    VotesOfAppend(t.votes, ToVotes(w.id, picks), w.id);
    ToVotesOwner(w.id, picks, w.id);
  }

  /** The sequence the count check produces after a refusal: a voter whose
      refused submission created votes has the next completed submission
      rolled back, and the one after it recorded. */
  lemma RefusalThenRollbackThenCommit(t: Tables, ps: seq<Position>, cs: seq<Candidate>, v: nat,
                                      tooMany: Form, good: Form, slugify: string -> string)
    requires v < |t.voters| && !t.voters[v].voted && VotesOf(t.votes, t.voters[v].id) == []
    requires Cleaned(tooMany) != map[] && Cleaned(good) != map[]
    requires ResolveAll(ps, cs, Cleaned(tooMany), slugify).Refused?
    requires |Choices(ps, cs, tooMany, slugify)| > 0
    requires ResolveAll(ps, cs, Cleaned(good), slugify).Resolved?
    ensures var r1 := Submit(t, ps, cs, v, true, tooMany, slugify);
      var r2 := Submit(r1.0, ps, cs, v, true, good, slugify);
      var r3 := Submit(r2.0, ps, cs, v, true, good, slugify);
      r1.1.TooManySelections? && r2.1 == RolledBack && r3.1 == Recorded &&
      VotesOf(r3.0.votes, t.voters[v].id) == ToVotes(t.voters[v].id, Choices(ps, cs, good, slugify))
  {
    var w := t.voters[v];
    var r1 := Submit(t, ps, cs, v, true, tooMany, slugify);
    SubmitOwnVotes(t, ps, cs, v, true, tooMany, slugify);
    assert VotesOf(r1.0.votes, w.id) != [];
    CommitIffNoLeftovers(r1.0, ps, cs, v, good, slugify);
    var r2 := Submit(r1.0, ps, cs, v, true, good, slugify);
    SubmitGuards(r1.0, ps, cs, v, true, good, slugify);
    SubmitOwnVotes(r1.0, ps, cs, v, true, good, slugify);
    CommitIffNoLeftovers(r2.0, ps, cs, v, good, slugify);
    SubmitOwnVotes(r2.0, ps, cs, v, true, good, slugify);
  }

  // ----- the table invariant -------------------------------------------------------

  /** Every vote names a candidate standing for the position it is recorded under. */
  ghost predicate VotesNameCandidates(cs: seq<Candidate>, votes: seq<Vote>) {
    forall x :: x in votes ==> exists c :: c in cs && c.id == x.candidateId && c.positionId == x.positionId
  }

  /** Every voter marked as having voted holds at most Cap votes per position. */
  ghost predicate VotedWithinCaps(ps: seq<Position>, t: Tables) {
    forall i, k :: 0 <= i < |t.voters| && t.voters[i].voted && 0 <= k < |ps| ==>
      CountAt(t.votes, t.voters[i].id, ps[k].id) <= Cap(ps[k])
  }

  ghost predicate Consistent(ps: seq<Position>, cs: seq<Candidate>, t: Tables) {
    UniqueVoterIds(t.voters) && VotesNameCandidates(cs, t.votes) && VotedWithinCaps(ps, t)
  }

  lemma AppendNamesCandidates(ps: seq<Position>, cs: seq<Candidate>, votes: seq<Vote>, voterId: Id, picks: seq<Pick>)
    requires VotesNameCandidates(cs, votes)
    requires forall k :: 0 <= k < |picks| ==> Legitimate(picks[k], ps, cs)
    ensures VotesNameCandidates(cs, votes + ToVotes(voterId, picks))
  {
    var added := ToVotes(voterId, picks);
    ToVotesSpec(voterId, picks);
    forall x | x in votes + added
      ensures exists c :: c in cs && c.id == x.candidateId && c.positionId == x.positionId
    {
      if x !in votes {
        var k :| 0 <= k < |added| && added[k] == x;
        assert Legitimate(picks[k], ps, cs);
      }
    }
  }

  /** A submission never marks a voter beyond their caps: the one voter it
      can mark is left holding exactly the recorded choices, at most Cap
      per position, and every other voter keeps their votes. */
  lemma SubmitKeepsCaps(t: Tables, ps: seq<Position>, cs: seq<Candidate>, v: nat, isPost: bool, form: Form,
                        slugify: string -> string)
    requires v < |t.voters| && UniquePositionIds(ps) && UniqueVoterIds(t.voters) && VotedWithinCaps(ps, t)
    ensures VotedWithinCaps(ps, Submit(t, ps, cs, v, isPost, form, slugify).0)
  {
    var r := Submit(t, ps, cs, v, isPost, form, slugify);
    var w := t.voters[v];
    var picks := Choices(ps, cs, form, slugify);
    SubmitGuards(t, ps, cs, v, isPost, form, slugify);
    SubmitOwnVotes(t, ps, cs, v, isPost, form, slugify);
    forall i, k | 0 <= i < |r.0.voters| && r.0.voters[i].voted && 0 <= k < |ps|
      ensures CountAt(r.0.votes, r.0.voters[i].id, ps[k].id) <= Cap(ps[k])
    {
      if i == v && r.1 == Recorded {
        ResolveWithinCaps(ps, cs, Cleaned(form), slugify);
        ToVotesAtPosition(w.id, picks, ps[k].id);
      } else if i == v {
        assert w.voted;
        assert r.0 == t;
      } else {
        assert r.0.voters[i] == t.voters[i];
        assert t.voters[i].id != w.id;
        SubmitOtherVotes(t, ps, cs, v, isPost, form, slugify, t.voters[i].id);
      }
    }
  }

  /** Every submission keeps the table invariant: voter ids stay unique,
      every vote names a candidate of its position, and nobody marked as
      having voted holds more votes for a position than it allows. */
  lemma SubmitPreserves(t: Tables, ps: seq<Position>, cs: seq<Candidate>, v: nat, isPost: bool, form: Form,
                        slugify: string -> string)
    requires v < |t.voters| && UniquePositionIds(ps) && Consistent(ps, cs, t)
    ensures Consistent(ps, cs, Submit(t, ps, cs, v, isPost, form, slugify).0)
  {
    var r := Submit(t, ps, cs, v, isPost, form, slugify);
    var w := t.voters[v];
    var picks := Choices(ps, cs, form, slugify);
    ResolveLegitimate(ps, cs, Cleaned(form), slugify);
    AppendNamesCandidates(ps, cs, t.votes, w.id, picks);
    SubmitKeepsCaps(t, ps, cs, v, isPost, form, slugify);
    assert forall i :: 0 <= i < |r.0.voters| ==> r.0.voters[i].id == t.voters[i].id;
  }
}

=== FILE: views.dfy ===
/** The voting views over the record store. The store keeps the four
    tables as fields that the views update in place; each view is proved
    to leave the tables as the corresponding specification function says
    and to keep the table invariant. The logged-in voter of a request is
    given as an index into the voter table. */
module Views {
  import opened Wrappers
  import opened Records
  import Ballot
  import Otp
  import opened Selection
  import opened Submission

  /** Where a view sends the browser, or the page it renders. */
  datatype Page = ResultsPage(myVotes: seq<Vote>) | VerifyPage | BallotPage | DashboardPage

  /** The JSON reply of the preview view. */
  datatype PreviewReply = InvalidAccess | Listing(groups: seq<PreviewGroup>, refusedAt: Option<Position>)

  /** Writing new priorities over positions changes neither the keys nor the caps. */
  lemma SameKeysAndCaps(ps: seq<Position>, qs: seq<Position>, cs: seq<Candidate>, t: Tables)
    requires |qs| == |ps|
    requires forall i :: 0 <= i < |ps| ==> qs[i].id == ps[i].id && qs[i].maxVote == ps[i].maxVote
    requires UniquePositionIds(ps) && Consistent(ps, cs, t)
    ensures UniquePositionIds(qs) && Consistent(qs, cs, t)
  {
    forall i, k | 0 <= i < |t.voters| && t.voters[i].voted && 0 <= k < |qs|
      ensures CountAt(t.votes, t.voters[i].id, qs[k].id) <= Cap(qs[k])
    {
      assert CountAt(t.votes, t.voters[i].id, ps[k].id) <= Cap(ps[k]);
    }
  }

  /** generate_ballot's renumbering keeps the store's invariant. */
  lemma RenumberedKeepsInvariant(ps: seq<Position>, cs: seq<Candidate>, t: Tables)
    requires UniquePositionIds(ps) && Consistent(ps, cs, t)
    ensures UniquePositionIds(Ballot.Renumbered(ps)) && Consistent(Ballot.Renumbered(ps), cs, t)
  {
    var order := Ballot.OrderByPriority(ps);
    Ballot.RenumberSpec(ps, order);
    SameKeysAndCaps(ps, Ballot.Renumbered(ps), cs, t);
  }

  /** Updating voter rows without touching ids or the voted flag keeps the invariant. */
  lemma SameIdsAndVoted(ps: seq<Position>, cs: seq<Candidate>, vs: seq<Voter>, ws: seq<Voter>, votes: seq<Vote>)
    requires |ws| == |vs|
    requires forall i :: 0 <= i < |vs| ==> ws[i].id == vs[i].id && ws[i].voted == vs[i].voted
    requires Consistent(ps, cs, Tables(vs, votes))
    ensures Consistent(ps, cs, Tables(ws, votes))
  {
    forall i, k | 0 <= i < |ws| && ws[i].voted && 0 <= k < |ps|
      ensures CountAt(votes, ws[i].id, ps[k].id) <= Cap(ps[k])
    {
      assert CountAt(votes, vs[i].id, ps[k].id) <= Cap(ps[k]);
    }
  }

  class ElectionStore {
    var positions: seq<Position>
    var candidates: seq<Candidate>
    var voters: seq<Voter>
    var votes: seq<Vote>

    /** Unique keys, and the vote-table invariant of Submission.Consistent. */
    ghost predicate Valid()
      reads this
    {
      UniquePositionIds(positions) && UniqueCandidateIds(candidates) &&
      Consistent(positions, candidates, Tables(voters, votes))
    }

    /** A store with the given positions, candidates and voters and no votes yet. */
    constructor (ps: seq<Position>, cs: seq<Candidate>, vs: seq<Voter>)
      requires UniquePositionIds(ps) && UniqueCandidateIds(cs) && UniqueVoterIds(vs)
      requires forall i :: 0 <= i < |vs| ==> !vs[i].voted
      ensures Valid()
      ensures positions == ps && candidates == cs && voters == vs && votes == []
    {
      positions := ps;
      candidates := cs;
      voters := vs;
      votes := [];
    }

    /** generate_ballot: one entry per position in priority order, and the
        priorities rewritten to 1, 2, ... in that order. */
    method GenerateBallot(displayControls: bool, slugify: string -> string) returns (ballot: seq<Ballot.Entry>)
      requires Valid()
      modifies this
      ensures Valid()
      ensures ballot == Ballot.BallotOf(old(positions), candidates, displayControls, slugify)
      ensures positions == Ballot.Renumbered(old(positions))
      ensures candidates == old(candidates) && voters == old(voters) && votes == old(votes)
    {
      var order := Ballot.OrderByPriority(positions);
      ballot := RenderInOrder(order, displayControls, slugify);
      RenumberedKeepsInvariant(old(positions), candidates, Tables(voters, votes));
    }

    /** The loop of generate_ballot over the positions listed by `order`:
        renders each one, then gives it the next priority. */
    method RenderInOrder(order: seq<nat>, displayControls: bool, slugify: string -> string)
      returns (ballot: seq<Ballot.Entry>)
      requires Ballot.Permutes(order, |positions|)
      modifies this
      ensures ballot == Ballot.Entries(old(positions), order, candidates, displayControls, slugify)
      ensures positions == Ballot.Renumber(old(positions), order)
      ensures candidates == old(candidates) && voters == old(voters) && votes == old(votes)
    {
      ghost var ps := positions;
      var count := |positions|;
      ballot := [];
      var num := 1;
      for k := 0 to |order|
        invariant num == k + 1
        invariant candidates == old(candidates) && voters == old(voters) && votes == old(votes)
        invariant Ballot.InRange(order[..k], |ps|)
        invariant positions == Ballot.Renumber(ps, order[..k])
        invariant ballot == Ballot.Entries(ps, order[..k], candidates, displayControls, slugify)
      {
        var i := order[k];
        Ballot.RenumberStep(ps, order, k);
        Ballot.EntriesStep(ps, order, k, candidates, displayControls, slugify);
        var position := positions[i];
        ballot := ballot + [Ballot.EntryFor(position, candidates, count, displayControls, slugify)];
        positions := positions[i := position.(priority := num)];
        num := num + 1;
      }
      assert order[..|order|] == order;
    }

    /** dashboard: results for a voter who has voted; otherwise the OTP
        check, which verifies the voter on the spot when delivery is off. */
    method Dashboard(v: nat, sendOtp: bool) returns (page: Page)
      requires Valid() && v < |voters|
      modifies this
      ensures Valid()
      ensures voters == old(voters)[v := Otp.Dashboard(old(voters)[v], sendOtp).0]
      ensures page == match Otp.Dashboard(old(voters)[v], sendOtp).1
        case ShowResults => ResultsPage(VotesOf(votes, voters[v].id))
        case GoVerify => VerifyPage
        case GoBallot => BallotPage
      ensures positions == old(positions) && candidates == old(candidates) && votes == old(votes)
    {
      var w := voters[v];
      if w.voted {
        return ResultsPage(VotesOf(votes, w.id));
      }
      if w.otp.None? || !w.verified {
        if !sendOtp {
          voters := voters[v := w.(otp := Some(Otp.BypassCode), verified := true)];
          SameIdsAndVoted(positions, candidates, old(voters), voters, votes);
        } else {
          return VerifyPage;
        }
      }
      return BallotPage;
    }

    /** resend_otp: sends the voter's code (issuing one if needed) while
        fewer than three codes have been delivered. */
    method ResendOtp(v: nat, sendOtp: bool, draws: seq<int>, delivered: bool) returns (reply: Otp.ResendReply)
      requires Valid() && v < |voters| && Otp.ValidDraws(draws)
      modifies this
      ensures Valid()
      ensures |voters| == |old(voters)|
      ensures (voters[v], reply) == Otp.Resend(old(voters)[v], sendOtp, draws, delivered)
      ensures voters == old(voters)[v := voters[v]]
      ensures positions == old(positions) && candidates == old(candidates) && votes == old(votes)
    {
      var w := voters[v];
      if !sendOtp {
        return Otp.OtpNotRequired;
      }
      if w.otpSent >= Otp.SendLimit {
        return Otp.LimitReached;
      }
      var otp := if w.otp.Some? && w.otp.value != "" then w.otp.value else Otp.GenerateOtp(draws);
      w := w.(otp := Some(otp));
      voters := voters[v := w];
      if delivered {
        w := w.(otpSent := w.otpSent + 1);
        voters := voters[v := w];
        reply := Otp.OtpSent;
      } else {
        reply := Otp.DeliveryFailed;
      }
      SameIdsAndVoted(positions, candidates, old(voters), voters, votes);
    }

    /** bypass_otp: every voter with no code who is not verified gets the
        fixed code and is verified; nobody else changes. */
    method BypassOtp()
      requires Valid()
      modifies this
      ensures Valid()
      ensures |voters| == |old(voters)|
      ensures forall i :: 0 <= i < |voters| ==> voters[i] == Otp.Bypassed(old(voters)[i])
      ensures positions == old(positions) && candidates == old(candidates) && votes == old(votes)
    {
      for i := 0 to |voters|
        invariant |voters| == |old(voters)|
        invariant positions == old(positions) && candidates == old(candidates) && votes == old(votes)
        invariant forall j :: 0 <= j < i ==> voters[j] == Otp.Bypassed(old(voters)[j])
        invariant forall j :: i <= j < |voters| ==> voters[j] == old(voters)[j]
      {
        if voters[i].otp.None? && !voters[i].verified {
          voters := voters[i := voters[i].(otp := Some(Otp.BypassCode), verified := true)];
        }
      }
      SameIdsAndVoted(positions, candidates, old(voters), voters, votes);
    }

    /** verify_otp: a POST whose code is accepted verifies the voter and
        goes to the ballot; anything else goes back to the verification page. */
    method VerifyOtp(v: nat, sendOtp: bool, isPost: bool, posted: Option<string>) returns (page: Page)
      requires Valid() && v < |voters|
      modifies this
      ensures Valid()
      ensures !isPost ==> page == VerifyPage && voters == old(voters)
      ensures isPost ==> voters == old(voters)[v := Otp.Verify(old(voters)[v], posted, sendOtp)]
      ensures isPost ==> (page == BallotPage <==> Otp.Accepts(old(voters)[v].otp, posted, sendOtp))
      ensures page == BallotPage || page == VerifyPage
      ensures positions == old(positions) && candidates == old(candidates) && votes == old(votes)
    {
      if !isPost {
        return VerifyPage;
      }
      var w := voters[v];
      if w.otp == posted || (!sendOtp && posted == Some(Otp.BypassCode)) {
        voters := voters[v := w.(verified := true)];
        SameIdsAndVoted(positions, candidates, old(voters), voters, votes);
        return BallotPage;
      }
      return VerifyPage;
    }

    /** show_ballot: a voter who has voted goes back to the dashboard;
        anyone else gets the ballot without reordering controls, which
        renumbers the priorities as generate_ballot does. */
    method ShowBallot(v: nat, slugify: string -> string) returns (ballot: Option<seq<Ballot.Entry>>)
      requires Valid() && v < |voters|
      modifies this
      ensures Valid()
      ensures ballot.None? <==> old(voters)[v].voted
      ensures ballot.None? ==> positions == old(positions)
      ensures ballot.Some? ==>
        ballot.value == Ballot.BallotOf(old(positions), candidates, false, slugify) &&
        positions == Ballot.Renumbered(old(positions))
      ensures candidates == old(candidates) && voters == old(voters) && votes == old(votes)
    {
      if voters[v].voted {
        return None;
      }
      var entries := GenerateBallot(false, slugify);
      return Some(entries);
    }

    /** preview_vote: the names the submitted form would vote for, grouped
        by position, stopping at the first position with too many choices. */
    method PreviewVote(isPost: bool, form: Form, slugify: string -> string) returns (reply: PreviewReply)
      ensures !isPost ==> reply == InvalidAccess
      ensures isPost ==>
        reply == Listing(PreviewOf(positions, candidates, form - {"csrfmiddlewaretoken"}, slugify).groups,
                         PreviewOf(positions, candidates, form - {"csrfmiddlewaretoken"}, slugify).refusedAt)
    {
      if !isPost {
        return InvalidAccess;
      }
      var f := form - {"csrfmiddlewaretoken"};
      var groups: seq<PreviewGroup> := [];
      var i := 0;
      while i < |positions|
        invariant 0 <= i <= |positions|
        invariant PreviewOf(positions[..i], candidates, f, slugify) == Preview(groups, None)
      {
        var p := positions[i];
        var pos := slugify(p.name);
        PreviewStep(positions, candidates, f, slugify, i);
        ghost var sel := Selected(f, p, slugify);
        if p.maxVote > 1 {
          var selected := if pos + "[]" in f then f[pos + "[]"] else [];
          assert selected == sel;
          if |selected| > p.maxVote {
            PreviewRefusalSticks(positions, candidates, f, slugify, i + 1);
            return Listing(groups, Some(p));
          }
          if |selected| > 0 {
            var names: seq<string> := [];
            for j := 0 to |selected|
              invariant names == NamesFor(selected[..j], p, candidates)
            {
              NamesForStep(selected, j, p, candidates);
              match FindCandidate(candidates, selected[j], p.id)
              case Some(c) =>
                names := names + [c.fullname];
              case None =>
            }
            assert selected[..|selected|] == selected;
            groups := groups + [PreviewGroup(p.name, names)];
          }
        } else if pos in f && |f[pos]| > 0 {
          assert sel == [f[pos][0]];
          NamesForOne(f[pos][0], p, candidates);
          match FindCandidate(candidates, f[pos][0], p.id)
          case Some(c) =>
            groups := groups + [PreviewGroup(p.name, [c.fullname])];
          case None =>
        } else {
          assert sel == [];
        }
        i := i + 1;
      }
      assert positions[..i] == positions;
      return Listing(groups, None);
    }

    /** The vote-creating loop of submit_ballot for one position: every
        reference that finds a candidate of `p` becomes a vote of the voter;
        returns how many votes it created. */
    method RecordChoices(voterId: Id, p: Position, refs: seq<string>) returns (cast: nat)
      modifies this
      ensures votes == old(votes) + ToVotes(voterId, PicksFor(refs, p, candidates))
      ensures cast == |PicksFor(refs, p, candidates)|
      ensures voters == old(voters) && positions == old(positions) && candidates == old(candidates)
    {
      ghost var before := votes;
      cast := 0;
      for j := 0 to |refs|
        invariant voters == old(voters) && positions == old(positions) && candidates == old(candidates)
        invariant votes == before + ToVotes(voterId, PicksFor(refs[..j], p, candidates))
        invariant cast == |PicksFor(refs[..j], p, candidates)|
      {
        ToVotesStep(voterId, refs, j, p, candidates);
        match FindCandidate(candidates, refs[j], p.id)
        case Some(c) =>
          AppendAssoc(before, ToVotes(voterId, PicksFor(refs[..j], p, candidates)), [Vote(voterId, c.id, p.id)]);
          votes := votes + [Vote(voterId, c.id, p.id)];
          cast := cast + 1;
        case None =>
      }
      assert refs[..|refs|] == refs;
    }

    /** The position loop of submit_ballot: creates the votes of every
        position in store order, stopping at the first position with too
        many choices. Returns that position, if any, and the number of
        votes created. */
    method CastVotes(voterId: Id, f: Form, slugify: string -> string) returns (refusedAt: Option<Position>, votesCast: nat)
      modifies this
      ensures votes == old(votes) + ToVotes(voterId, ResolveAll(positions, candidates, f, slugify).picks)
      ensures refusedAt == match ResolveAll(positions, candidates, f, slugify)
        case Refused(_, p) => Some(p)
        case Resolved(_) => None
      ensures votesCast == |ResolveAll(positions, candidates, f, slugify).picks|
      ensures voters == old(voters) && positions == old(positions) && candidates == old(candidates)
    {
      votesCast := 0;
      var ps, cs := positions, candidates;
      ghost var picks: seq<Pick> := [];
      var i := 0;
      while i < |ps|
        invariant 0 <= i <= |ps|
        invariant voters == old(voters) && positions == ps && candidates == cs
        invariant ResolveAll(ps[..i], cs, f, slugify) == Resolved(picks)
        invariant votes == old(votes) + ToVotes(voterId, picks) && votesCast == |picks|
      {
        var p := ps[i];
        if OverCap(f, p, slugify) {
          RefusalAt(ps, cs, f, slugify, i, picks);
          RefusalSticks(ps, cs, f, slugify, i + 1);
          return Some(p), votesCast;
        }
        var refs := Selected(f, p, slugify);
        ResolveStep(ps, cs, f, slugify, i, picks, refs);
        var cast := RecordChoices(voterId, p, refs);
        votesCast := votesCast + cast;
        ToVotesAppend(voterId, picks, PicksFor(refs, p, cs));
        AppendAssoc(old(votes), ToVotes(voterId, picks), ToVotes(voterId, PicksFor(refs, p, cs)));
        picks := picks + PicksFor(refs, p, cs);
        i := i + 1;
      }
      assert ps[..i] == ps;
      return None, votesCast;
    }

    /** submit_ballot: records the voter's choices position by position,
        then either marks the voter as having voted or, if the voter's vote
        count disagrees with the number of votes created, deletes all of
        the voter's votes. */
    method SubmitBallot(v: nat, isPost: bool, form: Form, slugify: string -> string) returns (outcome: Outcome)
      requires Valid() && v < |voters|
      modifies this
      ensures Valid()
      ensures (Tables(voters, votes), outcome) ==
        Submit(Tables(old(voters), old(votes)), positions, candidates, v, isPost, form, slugify)
      ensures positions == old(positions) && candidates == old(candidates)
    {
      ghost var start := Tables(voters, votes);
      if !isPost {
        return NotPost;
      }
      var w := voters[v];
      if w.voted {
        return AlreadyVoted;
      }
      var f := form - {"csrfmiddlewaretoken", "submit_vote"};
      if f == map[] {
        return NothingSelected;
      }
      SubmitPreserves(start, positions, candidates, v, isPost, form, slugify);
      var refusedAt, votesCast := CastVotes(w.id, f, slugify);
      if refusedAt.Some? {
        return TooManySelections(refusedAt.value);
      }
      if |VotesOf(votes, w.id)| != votesCast {
        votes := WithoutVoter(votes, w.id);
        return RolledBack;
      }
      voters := voters[v := w.(voted := true)];
      return Recorded;
    }
  }
}

=== FILE: wrappers.dfy ===
/** Optional values: the nullable columns of the record store and the
    lookups that may find nothing. */
module Wrappers {

  datatype Option<+T> = None | Some(value: T)

}
